=== FILE: README.md ===
# Connectly, modelled in Dafny

Connectly is a small social network built on ASP.NET Core MVC. This project models its core:

- **Follow requests.** A directed edge from one user to another is Pending, Accepted or Rejected. No row means there is no relationship yet. The transitions are Send, Accept and Reject. A four-list dashboard shows the edges that touch the caller.
- **Groups.** This covers membership (Join, Leave, moderator approval and rejection), group creation and deletion, messages (post, edit, delete), and the list and details views. The views derive `IsModerator` and `IsMember` from the caller's membership.
- **Profiles.** This covers the name search, the details page with its privacy rule, and the edit form.

How the model is built:

- Every action is a pure function from the store, the caller and the form values to a `Response(outcome, store)`.
- The caller is `Option<UserId>`. `None` is the anonymous visitor, and `[Authorize]` turns it into a Challenge.
- A table with an identity key is `Tables.Table`: a map from id to row, plus the counter new ids come from.
- EF's `FirstOrDefault` is the lowest matching id.
- The clock is a `now` parameter.
- A null form string is the empty string.

The model is split into these modules:

- `Common`: options, outcomes and responses.
- `Text`: `IsNullOrWhiteSpace`, `Trim`, `ToLower` and `Contains`.
- `Tables`: the keyed table.
- `Sorting`: `OrderBy` on a string key.
- `Follows`: follow requests.
- `GroupModels`: the group entities, their bounds and the view predicates.
- `Groups`: the group actions.
- `Profiles`: the profile actions.

The store invariants the proofs rely on:

- **Follows.Inv.**
  - Ids are drawn from the counter.
  - There is at most one row per ordered pair.
  - No row is a self edge or has a blank target.
- **Groups.Inv.**
  - Ids are drawn from the counters.
  - There is at most one membership per (group, user).
  - Members and messages only name group ids that were handed out.
  - Every stored message's content fits its 1000-character column.

## Model

| member | source | states |
|---|---|---|
| Tables.Insert | Controllers/GroupsController.cs:175-183 | An added row gets a fresh id that was not in use. Every other row is kept and the counter moves past the new id. |
| Tables.FirstWhere | Controllers/FollowsController.cs:68-69 | `FirstOrDefault` returns a matching row with no lower-id match, or None exactly when no row matches. |
| Tables.WhereAgrees | Controllers/FollowsController.cs:26-44 | `Where` agrees with its siblings. `FirstWhere` finds nothing exactly when `Where` is empty, and otherwise finds the least id of `Where`. `RemoveWhere` keeps exactly the ids outside `Where`. |
| Tables.RemoveWhere | Controllers/GroupsController.cs:249-255 | Exactly the matching rows are removed. The rest are kept unchanged and the counter is not rewound. |
| Text.Trim | Controllers/ProfilesController.cs:97-99 | The result is the input with white space stripped from both ends. It has no white space at either end, and it is empty exactly when the input is blank. |
| Text.TrimIdempotent | Controllers/ProfilesController.cs:97-99 | Trimming a trimmed string changes nothing. |
| Text.TrimFixesTrimmed | Controllers/ProfilesController.cs:97-99 | Trimming leaves a string unchanged exactly when it has no white space at either end. |
| Text.TrimKeepsContent | Controllers/GroupsController.cs:268-281 | A non-blank string is still non-blank after trimming and never grows. |
| Text.IsBlank | Controllers/ProfilesController.cs:51 | `string.IsNullOrWhiteSpace`: the empty (null) string and every string made only of .NET white space are blank. |
| Text.ToLowerIdempotent | Controllers/ProfilesController.cs:29-30 | Lowered text has no ASCII capital left, and lowering it again changes nothing. |
| Text.Contains | Controllers/ProfilesController.cs:30 | True exactly when the pattern occurs at some index of the text. |
| Sorting.SortBy | Controllers/ProfilesController.cs:34 | The result is sorted by the key under the collation and is a permutation of the input. |
| Sorting.InsertSorted | Controllers/ProfilesController.cs:34 | Inserting into a sorted list keeps it sorted and adds exactly that element. |
| Follows.NewRequest | Models/FollowRequest.cs:12-27 | A new request is Pending, unanswered and stamped with its creation time. |
| Follows.Send | Controllers/FollowsController.cs:62-99 | Anonymous callers get a Challenge. A blank target or the caller's own id gets BadRequest. Only Ok changes the store, adding at most one row, after which a fresh Pending row for the pair exists. Rows of other pairs are untouched. |
| Follows.SendCreatesEdge | Controllers/FollowsController.cs:85-94 | With no row for the pair, exactly one new Pending, unanswered row is added under the next id. |
| Follows.SendReusesRejected | Controllers/FollowsController.cs:71-78 | A Rejected row for the pair is reset to Pending with a new timestamp and no answer. No row is added. |
| Follows.SendKeepsActiveEdge | Controllers/FollowsController.cs:79-83 | A Pending or Accepted row for the pair makes Send a no-op with the "already sent" notice. |
| Follows.SendPreservesInv | Controllers/FollowsController.cs:62-99 | Send keeps one row per ordered pair and never stores a self or blank edge. |
| Follows.SendLeavesReverseEdge | Controllers/FollowsController.cs:68-69 | Sending A to B neither touches nor creates a B to A row. |
| Follows.Accept | Controllers/FollowsController.cs:103-117 | Succeeds exactly when the request exists and is addressed to the caller, in any status. A signed-in caller gets NotFound otherwise. On Ok it sets Accepted and the answer time, and keeps the pair, the creation time and every other row. |
| Follows.Reject | Controllers/FollowsController.cs:121-135 | Same as Accept, including the NotFound case, but it sets Rejected. The row is kept. |
| Follows.RespondPreservesInv | Controllers/FollowsController.cs:108-112 | Answering a request keeps the follow invariant. |
| Follows.Index | Controllers/FollowsController.cs:22-44 | Each list is characterised on its own. Incoming are the pending requests to the user, followers the accepted requests to them, following the accepted requests from them, and outgoing the pending requests from them. The four lists are pairwise disjoint. Together they are exactly the non-rejected requests that touch the user. |
| Follows.DashboardDisjoint | Controllers/FollowsController.cs:26-44 | Given proper edges, no request is in two dashboard lists. |
| Follows.SendThenAccept | Controllers/FollowsController.cs:62-117 | After A sends and B accepts, A is among B's followers and B is among those A follows. |
| Follows.ResendAfterRejection | Controllers/FollowsController.cs:71-78 | Send, reject, send again: the same row is Pending again and no row was added. |
| GroupModels.NewMembership | Models/GroupModels.cs:44-48 | A membership built with defaults is a Pending Member. |
| GroupModels.ModeratorIsMember | Models/GroupViewModels.cs:26-27 | Every moderator is a member. A pending row or no row makes the caller neither. |
| GroupModels.IsModerator | Models/GroupViewModels.cs:26 | A moderator flag implies the member flag and a known role. A caller whose role is Member is never a moderator. |
| GroupModels.IsMember | Models/GroupViewModels.cs:27 | The member flag is set exactly when there is a status and it is not Pending. |
| GroupModels.CreateInputValid | Models/GroupViewModels.cs:53-60 | The creation form is valid when the name is non-blank and at most 120 characters, and the description is non-blank and at most 500. |
| GroupModels.TrimmedInputFitsGroup | Models/GroupViewModels.cs:53-60 | Once trimmed, creation input within the form's bounds also satisfies the bounds on `Group`. |
| Groups.HasModeratorRow | Controllers/GroupsController.cs:214 | True exactly when the caller has an Accepted Moderator row in the group. |
| Groups.HasAcceptedRow | Controllers/GroupsController.cs:274 | True exactly when the caller has an Accepted row in the group. |
| Groups.ModeratorChecksAgree | Controllers/GroupsController.cs:314-316 | With unique memberships, the first-row check used for messages equals the moderator query. |
| Groups.ModeratorChecksDisagreeOnDuplicates | Controllers/GroupsController.cs:314-316 | A concrete store with two rows for one (group, user) passes the moderator query but fails the first-row check. |
| Groups.Create | Controllers/GroupsController.cs:61-87 | Anonymous callers get a Challenge and invalid input re-displays the form. On Ok the new group holds the trimmed fields, satisfies its own bounds and gets its creator as Accepted Moderator. Messages are untouched. |
| Groups.CreateSeedsModerator | Controllers/GroupsController.cs:75-81 | The new group's only membership is its creator, as moderator, and its member count is 1. |
| Groups.CreatePreservesInv | Controllers/GroupsController.cs:67-84 | Creation keeps the group invariant. |
| Groups.Join | Controllers/GroupsController.cs:160-186 | A missing group gets NotFound. Ok happens exactly when the caller has no row in the group, and it adds one Pending Member row. Every other case leaves the store as it was. |
| Groups.JoinTwiceIsNoOp | Controllers/GroupsController.cs:168-173 | A second Join is a no-op, whatever the first row's status. |
| Groups.JoinPreservesInv | Controllers/GroupsController.cs:175-183 | Join keeps the group invariant. |
| Groups.Leave | Controllers/GroupsController.cs:190-202 | Ok happens exactly when the caller has a row in the group, and removes one such row. Without a row the store is unchanged. Groups and messages are never touched. |
| Groups.LeaveRemovesOwnRow | Controllers/GroupsController.cs:195-199 | After leaving, the caller has no row in the group. No other row changes and the invariant holds. |
| Groups.LastModeratorMayLeave | Controllers/GroupsController.cs:190-202 | Nothing stops the only moderator from leaving, which leaves the group with no moderator. |
| Groups.ApproveMember | Controllers/GroupsController.cs:206-221 | A missing membership gets NotFound. A caller who is not an accepted moderator of that group gets Forbid. Ok happens exactly when the membership exists and the caller moderates its group. On Ok only the target's status changes, to Accepted. |
| Groups.ApprovePreservesInv | Controllers/GroupsController.cs:217 | Approval keeps the group invariant. |
| Groups.ApproveCountsMember | Controllers/GroupsController.cs:45 | Approving a pending row raises the group's member count by one. |
| Groups.RejectMember | Controllers/GroupsController.cs:225-240 | Has the same NotFound, Forbid and Ok cases as approval. On Ok the target row is deleted, whatever its status or role. |
| Groups.RejectPreservesInv | Controllers/GroupsController.cs:236 | Rejection keeps the group invariant. |
| Groups.DeleteGroup | Controllers/GroupsController.cs:244-259 | A missing group gets NotFound and a non-moderator gets Forbid. Ok happens exactly when the group exists and the caller moderates it. On Ok the group row goes, child rows of other groups stay, and the group's members and messages go as the store's delete rule says. |
| Groups.DeleteGroupPreservesInv | Controllers/GroupsController.cs:255 | Deleting a group keeps the group invariant. |
| Groups.PostMessage | Controllers/GroupsController.cs:263-287 | Blank content is refused before membership is checked. A caller with no Accepted row gets Forbid. A member whose trimmed text is longer than the 1000-character column gets ServerError and nothing is stored. Ok happens exactly for a signed-in caller with non-blank content, an Accepted row and trimmed text that fits. On Ok one message is added with the trimmed, non-blank content. |
| Groups.OverlongPostFails | Controllers/GroupsController.cs:277-286 | An accepted member who posts 1001 non-blank characters gets ServerError and the store is unchanged, because the save runs without a length check against the 1000-character column (Models/GroupModels.cs:66). |
| Groups.PostPreservesInv | Controllers/GroupsController.cs:277-283 | Posting keeps the group invariant. |
| Groups.PostedMessageLacksTitle | Controllers/GroupsController.cs:277-283 | A posted message has an empty title, so it breaks the `[Required]` on `GroupMessage.Title`. |
| Groups.MayModify | Controllers/GroupsController.cs:296-298 | The author may always change a message. Anyone else needs an Accepted Moderator row in the message's group. |
| Groups.EditMessageForm | Controllers/GroupsController.cs:289-302 | Returns NotFound for a missing message and Forbid unless the caller may modify it. It succeeds exactly when the caller is signed in, the message exists and the caller may modify it, and then returns the stored message. |
| Groups.EditMessage | Controllers/GroupsController.cs:306-328 | Authorisation is checked before the blank check. An authorised caller with blank content is sent back with the empty-message notice. Non-blank trimmed text longer than 1000 characters gets ServerError and the store is unchanged. Ok happens exactly when the caller is authorised and the trimmed text is non-blank and fits. On Ok only the message's content changes, to the trimmed text. |
| Groups.DeleteMessage | Controllers/GroupsController.cs:332-348 | Uses the same authorisation as editing. On Ok exactly that message is removed. |
| Groups.EditMessagePreservesInv | Controllers/GroupsController.cs:324-325 | Editing a message keeps the group invariant. |
| Groups.DeleteMessagePreservesInv | Controllers/GroupsController.cs:344-345 | Deleting a message keeps the group invariant. |
| Groups.EditAuthorisation | Controllers/GroupsController.cs:314-316 | The author may always edit, as may an accepted moderator: their non-blank edit is saved, unless its text is too long for the column. Anyone else gets Forbid. |
| Groups.MembersPartition | Controllers/GroupsController.cs:119-141 | A group's accepted and pending lists are disjoint and together hold all of its memberships. |
| Groups.Details | Controllers/GroupsController.cs:89-156 | A missing group gets NotFound, and for a signed-in caller an existing one always gives a page. The page shows the stored group's name, description and creator. The lists hold exactly the group's accepted members, pending members and messages. The caller's status is absent exactly when they have no row. Otherwise status and role are those of the caller's first row in the group. |
| Groups.DetailsFlagsMatchChecks | Models/GroupViewModels.cs:26-27 | Under the invariant, the page's `IsModerator` and `IsMember` are exactly what the actions check. |
| Groups.MembershipLookup | Controllers/GroupsController.cs:29 | Fails exactly when the caller has two rows in one group. Otherwise it maps every group of the caller to that row. |
| Groups.Index | Controllers/GroupsController.cs:22-52 | Fails exactly on a duplicate membership. Otherwise it lists every group with its stored name and description and its accepted-member count. The item's status is that of the caller's row in the group, and is absent exactly when the caller has none. |
| Groups.ListItem | Controllers/GroupsController.cs:38-47 | The item carries the group's stored name and description and its accepted-member count. The status comes from the caller's row, if any. The moderator flag requires that row to be an Accepted Moderator row. |
| Groups.MemberCount | Controllers/GroupsController.cs:45 | A group's member count is zero exactly when every row of the group is still Pending. |
| Groups.IndexFlagsMatchChecks | Controllers/GroupsController.cs:29-47 | Under the invariant the list never fails, and its moderator flag equals the moderation query. |
| Profiles.Matching | Controllers/ProfilesController.cs:27-31 | Keeps exactly the profiles whose lowered name contains the trimmed, lowered query, with their multiplicities. |
| Profiles.Search | Controllers/ProfilesController.cs:23-46 | The result is sorted by full name. A blank query returns every profile. Otherwise a profile is listed exactly when its name matches, as often as it is stored. |
| Profiles.IndexOfUser | Controllers/ProfilesController.cs:53 | Returns the first position of the id, or None exactly when the id is absent. |
| Profiles.CanViewFull | Controllers/ProfilesController.cs:57 | The owner always sees their own profile in full. An anonymous visitor or any other user does so exactly when it is public. |
| Profiles.PrivateProfileHidden | Controllers/ProfilesController.cs:57 | A private profile is shown in full to its owner and nobody else, never to an anonymous visitor. |
| Profiles.Details | Controllers/ProfilesController.cs:49-70 | A blank or unknown id gets NotFound. Otherwise the page holds the stored fields of the first user with that id, in full exactly when that profile is public or the caller owns it. |
| Profiles.EditInputValid | Models/ProfileViewModels.cs:33-43 | The edit form is valid when the full name is non-blank and at most 100 characters, the bio is non-blank and at most 280, and the image URL is non-blank with an http, https or ftp prefix. |
| Profiles.EditForm | Controllers/ProfilesController.cs:72-86 | Anonymous or unknown callers get a Challenge. Otherwise the form is prefilled with the caller's stored profile. |
| Profiles.Edit | Controllers/ProfilesController.cs:90-106 | Anonymous callers get a Challenge and invalid forms are re-displayed. A valid form from a caller with no stored row gets a Challenge. On Ok only the caller's row changes, to the trimmed fields and the new privacy flag. |
| Profiles.EditRewritesRow | Controllers/ProfilesController.cs:97-100 | A valid edit by the owner of the first matching row rewrites exactly that row. |
| Profiles.EditThenDetails | Controllers/ProfilesController.cs:90-106 | After a valid edit by the owner of a stored row, the owner's details page shows the saved values in full. |
| Profiles.SaveUnchangedForm | Controllers/ProfilesController.cs:72-106 | Posting back the prefilled form of a valid, already trimmed profile changes nothing. |
| Profiles.RewriteWithOwnValues | Controllers/ProfilesController.cs:97-100 | Saving a row's own, already trimmed values over it leaves the table as it was. |

## Left out

- Rendering is not modelled: views, TempData notices, redirect targets, anti-forgery tokens, and display names looked up through `users.TryGetValue`.
- Program.cs, SeedData.cs and ApplicationDbContext.cs are not modelled. The store is given as data.
- Display view models such as the follow dashboard's user dictionary are not modelled beyond the fields the actions compute.
- Async I/O, `SaveChangesAsync` and `UserManager.UpdateAsync` are not modelled. Each is taken to succeed, so a failed save or a concurrent request is outside the model.
- `DateTime.UtcNow` becomes the `now` parameter.
- Sort orders: the profile search sorts by name under an abstract total preorder on strings. The database collation is not known. The order of equal names is the database's choice, while the model keeps store order.
- The group list's order by name and the details page's member and message orders are not modelled. Those lists are sets of ids.
- Text.ToLower: lowers ASCII letters only. The culture-sensitive, full-Unicode `ToLower` is not modelled. `Contains` is ordinal.
- Text.IsBlank: uses the .NET `char.IsWhiteSpace` set on code points. UTF-16 surrogates and string lengths in UTF-16 units are not modelled.
- Groups.DeleteGroup: takes the store's cascade rule for members and messages as a parameter. The delete behaviour configured in ApplicationDbContext.cs is not part of this model.
- `[Url]` on the image URL is an http, https or ftp prefix in any letter case, which is the whole of the attribute's test; `[Required]` makes it non-blank.
- User ids are compared ordinally everywhere. That is exact for the comparisons the controllers make in C#: Send's self check (Controllers/FollowsController.cs:66), `canViewFull` (Controllers/ProfilesController.cs:57) and the author checks of the message actions (Controllers/GroupsController.cs:299, 316, 342). The LINQ predicates run inside SQL Server instead, where `=` ignores trailing spaces and the default collation ignores letter case. Those are the follow-request queries (Controllers/FollowsController.cs:28-43, 69, 108, 126), the profile lookup (Controllers/ProfilesController.cs:53) and the membership and message queries of Controllers/GroupsController.cs. The database collation is not modelled. So Send's self check rejects only the caller's exact id, while its pair lookup would also find a stored row whose ids differ only in case or trailing spaces. The model treats such ids as different users, so a second Send to "B" after one to "b" adds a row here, where the database would find the first one.
- `[Required]` on `FollowRequest.FromUserId` is not checked. The sender's id is the signed-in identity's id, which the identity store never leaves blank. The model does not assume that: a blank caller id would be stored as the sender, and the follow invariant constrains only the target.
- `[StringLength]` counts UTF-16 code units. The model counts characters.
- EF Core does not run the validation attributes on save, so `[Required]` and `[StringLength]` on the entities are predicates here (`GroupFieldsValid`, `MessageFieldsValid`). The schema still follows them: `[StringLength(1000)]` on `GroupMessage.Content` makes an `nvarchar(1000)` column. SQL Server refuses longer text, so PostMessage and EditMessage answer `ServerError` for trimmed content over 1000 characters and store nothing (`Groups.OverlongPostFails`). Every stored message fits (`Groups.MessagesFit`, part of `Groups.Inv`). The other column widths are not modelled: group names and descriptions are validated before they are saved, and a posted message's empty `Title` fits its column.

## Notes on the source

- ApplicationUser.cs declares none of the profile fields (`FullName`, `Bio`, `ProfileImageUrl`, `IsPrivate`) that the controllers read and write. The model takes those fields from the controllers.
- Send does not check that the target user exists. Any non-blank id other than the caller's own gets a row.
- Accept and Reject do not look at the current status, so an accepted request can be rejected later and the reverse.
- RejectMember deletes any row, including a moderator's. Leave lets the last moderator go (`Groups.LastModeratorMayLeave`).
- PostMessage never sets `Title`, which is `[Required, StringLength(200)]` (`Groups.PostedMessageLacksTitle`). Neither PostMessage nor EditMessage checks the 1000-character bound on `Content` before saving, so overlong text reaches the database and the save fails with an error page instead of a notice.
- Approve, Reject and DeleteGroup ask whether some row makes the caller a moderator. EditMessage and DeleteMessage ask whether the first row does. The two answers agree only while memberships are unique (`Groups.ModeratorChecksAgree`, `Groups.ModeratorChecksDisagreeOnDuplicates`). The group list's `ToDictionary` throws on duplicate memberships, which the model represents as `ServerError`.

=== FILE: common.dfy ===
/**
  Vocabulary shared by every controller of the model: optional values, user
  identifiers, the abstract clock, and the outcome of an action.
 */
module Common {

  /** The conventional Some/None datatype, used for nullable references and lookups. */
  datatype Option<+T> = None | Some(value: T)

  /** Identity-store user ids are opaque strings. */
  type UserId = string

  /** An abstract clock reading; every action that stamps a row receives `now`. */
  type Time = int

  /** The informational message an action leaves when it redirects without saving. */
  datatype Notice =
    | AlreadyRequested   // "Request already sent or accepted."
    | AlreadyMember      // "You already have a membership for this group."
    | NotAMember         // Leave without a membership: plain redirect
    | EmptyMessage       // "Message cannot be empty."
    | InvalidInput       // the form is re-displayed with its validation errors

  /** What an action answers. `Ok` means the change was saved; `Unchanged` is a soft no-op. */
  datatype Outcome =
    | Ok
    | Unchanged(notice: Notice)
    | BadRequest
    | NotFound
    | Forbid
    | Challenge
    | ServerError        // an exception escaped the action

  /** An action's answer together with the store it leaves behind. */
  datatype Response<S> = Response(outcome: Outcome, store: S)

  /** A read-only action either yields a view or fails with an outcome. */
  datatype Result<T> = Success(value: T) | Failure(outcome: Outcome)
}

=== FILE: follows.dfy ===
/**
  Follow requests: a directed edge from one user to another that is Pending,
  Accepted or Rejected, with no row at all meaning "no relationship yet".
  `Send`, `Accept` and `Reject` are the transitions; `Index` splits the edges
  touching the caller into the four dashboard lists.
 */
module Follows {
  import opened Common
  import opened Text
  import opened Tables

  datatype FollowRequestStatus = Pending | Accepted | Rejected

  /** One stored follow edge. Its id is the key it is stored under. */
  datatype FollowRequest = FollowRequest(
    fromUserId: UserId,
    toUserId: UserId,
    status: FollowRequestStatus,
    createdAt: Time,
    respondedAt: Option<Time>)

  type FollowStore = Table<FollowRequest>

  /** A request as freshly constructed: Pending and not yet answered. */
  function NewRequest(from: UserId, to: UserId, now: Time): (r: FollowRequest)
    ensures r.status == Pending && r.respondedAt.None?
    ensures IsEdge(r, from, to) && r.createdAt == now
  {
    FollowRequest(from, to, Pending, now, None)
  }

  /** The row is the edge `from` -> `to`. */
  predicate IsEdge(r: FollowRequest, from: UserId, to: UserId) {
    r.fromUserId == from && r.toUserId == to
  }

  /** At most one row per ordered pair (from, to). */
  ghost predicate UniquePairs(s: FollowStore) {
    forall j, k :: j in s.rows && k in s.rows && IsEdge(s.rows[j], s.rows[k].fromUserId, s.rows[k].toUserId) ==> j == k
  }

  /** No row targets a blank id or the sender itself. */
  ghost predicate ProperEdges(s: FollowStore) {
    forall k :: k in s.rows ==> !IsBlank(s.rows[k].toUserId) && s.rows[k].fromUserId != s.rows[k].toUserId
  }

  /** The invariant every reachable follow store keeps. */
  ghost predicate Inv(s: FollowStore) {
    Valid(s) && UniquePairs(s) && ProperEdges(s)
  }

  /** The stored row for `from` -> `to`, if any. */
  function EdgeOf(s: FollowStore, from: UserId, to: UserId): Option<Id>
    requires Valid(s)
  {
    FirstWhere(s, (r: FollowRequest) => IsEdge(r, from, to))
  }

  /** Send a follow request from the caller to `toUserId`. */
  function Send(s: FollowStore, caller: Option<UserId>, toUserId: string, now: Time): (r: Response<FollowStore>)
    requires Valid(s)
    ensures Valid(r.store)
    ensures r.outcome == Challenge <==> caller.None?
    ensures r.outcome == BadRequest <==> caller.Some? && (IsBlank(toUserId) || toUserId == caller.value)
    ensures !r.outcome.Ok? ==> r.store == s
    ensures r.outcome.Ok? ==> s.rows.Keys <= r.store.rows.Keys && |r.store.rows.Keys - s.rows.Keys| <= 1
    ensures r.outcome.Ok? ==>
      exists k :: k in r.store.rows && r.store.rows[k] == NewRequest(caller.value, toUserId, now)
    ensures caller.Some? ==>
      forall k :: k in s.rows && !IsEdge(s.rows[k], caller.value, toUserId) ==> k in r.store.rows && r.store.rows[k] == s.rows[k]
  {
    match caller
    case None => Response(Challenge, s)
    case Some(u) =>
      if IsBlank(toUserId) || toUserId == u then
        Response(BadRequest, s)
      else
        Request(s, u, toUserId, now)
  }

  /** The part of `Send` past its argument checks: reopen a Rejected row, keep an active one, or add one. */
  function Request(s: FollowStore, u: UserId, to: UserId, now: Time): (r: Response<FollowStore>)
    requires Valid(s)
    ensures Valid(r.store)
    ensures r.outcome == Ok || r.outcome == Unchanged(AlreadyRequested)
    ensures !r.outcome.Ok? ==> r.store == s
    ensures r.outcome.Ok? ==> s.rows.Keys <= r.store.rows.Keys && |r.store.rows.Keys - s.rows.Keys| <= 1
    ensures r.outcome.Ok? ==> exists k :: k in r.store.rows && r.store.rows[k] == NewRequest(u, to, now)
    ensures forall k :: k in s.rows && !IsEdge(s.rows[k], u, to) ==> k in r.store.rows && r.store.rows[k] == s.rows[k]
  {
    match EdgeOf(s, u, to)
    case Some(k) =>
      if s.rows[k].status == Rejected then
        var row := s.rows[k].(status := Pending, createdAt := now, respondedAt := None);
        assert row == NewRequest(u, to, now);
        assert s.rows[k := row].Keys == s.rows.Keys;
        Response(Ok, s.(rows := s.rows[k := row]))
      else
        Response(Unchanged(AlreadyRequested), s)
    case None =>
      var (s', k) := Insert(s, NewRequest(u, to, now));
      assert s'.rows.Keys - s.rows.Keys == {k};
      assert s'.rows[k] == NewRequest(u, to, now);
      Response(Ok, s')
  }

  /** With no row for the pair yet, `Send` adds exactly one new Pending, unanswered row. */
  lemma SendCreatesEdge(s: FollowStore, u: UserId, to: string, now: Time)
    requires Valid(s) && !IsBlank(to) && to != u
    requires forall k :: k in s.rows ==> !IsEdge(s.rows[k], u, to)
    ensures var r := Send(s, Some(u), to, now);
      && r.outcome == Ok
      && s.nextId in r.store.rows && s.nextId !in s.rows
      && r.store.rows.Keys == s.rows.Keys + {s.nextId}
      && |r.store.rows| == |s.rows| + 1
      && r.store.rows[s.nextId] == FollowRequest(u, to, Pending, now, None)
      && forall k :: k in s.rows ==> r.store.rows[k] == s.rows[k]
  {
    var r := Send(s, Some(u), to, now);
    assert r.store.rows.Keys == s.rows.Keys + {s.nextId};
  }

  /** A Rejected row for the pair is reused: back to Pending, answer cleared, no new row. */
  lemma SendReusesRejected(s: FollowStore, u: UserId, to: string, now: Time, k: Id)
    requires Inv(s) && !IsBlank(to) && to != u
    requires k in s.rows && IsEdge(s.rows[k], u, to) && s.rows[k].status == Rejected
    ensures var r := Send(s, Some(u), to, now);
      && r.outcome == Ok
      && r.store.rows.Keys == s.rows.Keys
      && r.store.nextId == s.nextId
      && r.store.rows[k] == FollowRequest(u, to, Pending, now, None)
      && forall j :: j in s.rows && j != k ==> r.store.rows[j] == s.rows[j]
  {
    var e := EdgeOf(s, u, to);
    assert e == Some(k) by {
      if e.Some? {
        assert IsEdge(s.rows[e.value], s.rows[k].fromUserId, s.rows[k].toUserId);
      }
    }
  }

  /** A Pending or Accepted row for the pair makes `Send` a no-op. */
  lemma SendKeepsActiveEdge(s: FollowStore, u: UserId, to: string, now: Time, k: Id)
    requires Inv(s) && !IsBlank(to) && to != u
    requires k in s.rows && IsEdge(s.rows[k], u, to) && s.rows[k].status != Rejected
    ensures Send(s, Some(u), to, now) == Response(Unchanged(AlreadyRequested), s)
  {
    var e := EdgeOf(s, u, to);
    assert e == Some(k) by {
      if e.Some? {
        assert IsEdge(s.rows[e.value], s.rows[k].fromUserId, s.rows[k].toUserId);
      }
    }
  }

  /** `Send` keeps at most one row per ordered pair, and never stores a self or blank edge. */
  lemma SendPreservesInv(s: FollowStore, caller: Option<UserId>, to: string, now: Time)
    requires Inv(s)
    ensures Inv(Send(s, caller, to, now).store)
  {
    var r := Send(s, caller, to, now);
    if r.outcome.Ok? {
      var u := caller.value;
      if EdgeOf(s, u, to).None? {
        assert r.store.rows == s.rows[s.nextId := NewRequest(u, to, now)];
        AddEdgePreservesUnique(s, s.nextId, NewRequest(u, to, now));
      } else {
        var k := EdgeOf(s, u, to).value;
        assert r.store.rows == s.rows[k := r.store.rows[k]];
        assert IsEdge(r.store.rows[k], s.rows[k].fromUserId, s.rows[k].toUserId);
        ReplaceEdgePreservesUnique(s, k, r.store.rows[k]);
      }
    }
  }

  /** Adding a row under a new id keeps pairs unique when no row has its pair yet. */
  lemma AddEdgePreservesUnique(s: FollowStore, k: Id, row: FollowRequest)
    requires UniquePairs(s) && k !in s.rows
    requires forall j :: j in s.rows ==> !IsEdge(s.rows[j], row.fromUserId, row.toUserId)
    ensures UniquePairs(s.(rows := s.rows[k := row]))
  {
    var t := s.rows[k := row];
    forall i, j | i in t && j in t && IsEdge(t[i], t[j].fromUserId, t[j].toUserId)
      ensures i == j
    {
      if i == k && j != k {
        assert IsEdge(s.rows[j], row.fromUserId, row.toUserId);
      }
    }
  }

  /** Rewriting a row without changing its pair keeps pairs unique. */
  lemma ReplaceEdgePreservesUnique(s: FollowStore, k: Id, row: FollowRequest)
    requires UniquePairs(s) && k in s.rows
    requires IsEdge(row, s.rows[k].fromUserId, s.rows[k].toUserId)
    ensures UniquePairs(s.(rows := s.rows[k := row]))
  {
    var t := s.rows[k := row];
    forall i, j | i in t && j in t && IsEdge(t[i], t[j].fromUserId, t[j].toUserId)
      ensures i == j
    {
      assert IsEdge(s.rows[i], s.rows[j].fromUserId, s.rows[j].toUserId);
    }
  }

  /** The edges (A, B) and (B, A) are independent: sending A -> B never touches or creates a B -> A row. */
  lemma SendLeavesReverseEdge(s: FollowStore, a: UserId, b: string, now: Time)
    requires Valid(s)
    ensures var r := Send(s, Some(a), b, now);
      && (forall k :: k in s.rows && IsEdge(s.rows[k], b, a) ==> k in r.store.rows && r.store.rows[k] == s.rows[k])
      && (forall k :: k in r.store.rows && IsEdge(r.store.rows[k], b, a) ==> k in s.rows && r.store.rows[k] == s.rows[k])
  {
    var r := Send(s, Some(a), b, now);
    if r.outcome.Ok? {
      forall k | k in r.store.rows && IsEdge(r.store.rows[k], b, a)
        ensures k in s.rows && r.store.rows[k] == s.rows[k]
      {
        if EdgeOf(s, a, b).None? {
          assert r.store.rows == s.rows[s.nextId := NewRequest(a, b, now)];
        }
      }
    }
  }

  /** Shared body of `Accept` and `Reject`: only the recipient may answer, and the answer is forced. */
  function Respond(s: FollowStore, caller: Option<UserId>, id: Id, answer: FollowRequestStatus, now: Time): Response<FollowStore> {
    match caller
    case None => Response(Challenge, s)
    case Some(u) =>
      if id in s.rows && s.rows[id].toUserId == u then
        Response(Ok, s.(rows := s.rows[id := s.rows[id].(status := answer, respondedAt := Some(now))]))
      else
        Response(NotFound, s)
  }

  /** The recipient accepts request `id`, whatever its current status. */
  function Accept(s: FollowStore, caller: Option<UserId>, id: Id, now: Time): (r: Response<FollowStore>)
    ensures Valid(s) ==> Valid(r.store)
    ensures caller.None? ==> r.outcome == Challenge
    ensures caller.Some? ==> (r.outcome == Ok <==> id in s.rows && s.rows[id].toUserId == caller.value)
    ensures caller.Some? && !r.outcome.Ok? ==> r.outcome == NotFound
    ensures !r.outcome.Ok? ==> r.store == s
    ensures r.outcome.Ok? ==>
      && r.store.nextId == s.nextId
      && r.store.rows.Keys == s.rows.Keys
      && r.store.rows[id].status == Accepted
      && r.store.rows[id].respondedAt == Some(now)
      && IsEdge(r.store.rows[id], s.rows[id].fromUserId, s.rows[id].toUserId)
      && r.store.rows[id].createdAt == s.rows[id].createdAt
      && forall k :: k in s.rows && k != id ==> r.store.rows[k] == s.rows[k]
  {
    Respond(s, caller, id, Accepted, now)
  }

  /** The recipient rejects request `id`, whatever its current status; the row is kept. */
  function Reject(s: FollowStore, caller: Option<UserId>, id: Id, now: Time): (r: Response<FollowStore>)
    ensures Valid(s) ==> Valid(r.store)
    ensures caller.None? ==> r.outcome == Challenge
    ensures caller.Some? ==> (r.outcome == Ok <==> id in s.rows && s.rows[id].toUserId == caller.value)
    ensures caller.Some? && !r.outcome.Ok? ==> r.outcome == NotFound
    ensures !r.outcome.Ok? ==> r.store == s
    ensures r.outcome.Ok? ==>
      && r.store.nextId == s.nextId
      && r.store.rows.Keys == s.rows.Keys
      && r.store.rows[id].status == Rejected
      && r.store.rows[id].respondedAt == Some(now)
      && IsEdge(r.store.rows[id], s.rows[id].fromUserId, s.rows[id].toUserId)
      && r.store.rows[id].createdAt == s.rows[id].createdAt
      && forall k :: k in s.rows && k != id ==> r.store.rows[k] == s.rows[k]
  {
    Respond(s, caller, id, Rejected, now)
  }

  /** Answering a request never changes which pairs have rows, so the invariant survives. */
  lemma RespondPreservesInv(s: FollowStore, caller: Option<UserId>, id: Id, now: Time)
    requires Inv(s)
    ensures Inv(Accept(s, caller, id, now).store)
    ensures Inv(Reject(s, caller, id, now).store)
  {
    var a := Accept(s, caller, id, now).store;
    var r := Reject(s, caller, id, now).store;
    assert forall k :: k in a.rows ==> IsEdge(a.rows[k], s.rows[k].fromUserId, s.rows[k].toUserId);
    assert forall k :: k in r.rows ==> IsEdge(r.rows[k], s.rows[k].fromUserId, s.rows[k].toUserId);
  }

  /** The four lists of the follow dashboard, as sets of request ids. */
  datatype Dashboard = Dashboard(
    incomingPending: set<Id>,
    followers: set<Id>,
    following: set<Id>,
    outgoingPending: set<Id>)

  /** The dashboard of user `u`. */
  function Index(s: FollowStore, u: UserId): (d: Dashboard)
    ensures forall k :: k in d.followers <==> k in s.rows && s.rows[k].toUserId == u && s.rows[k].status == Accepted
    ensures forall k :: k in d.following <==> k in s.rows && s.rows[k].fromUserId == u && s.rows[k].status == Accepted
    ensures forall k :: k in d.incomingPending <==> k in s.rows && s.rows[k].toUserId == u && s.rows[k].status == Pending
    ensures forall k :: k in d.outgoingPending <==> k in s.rows && s.rows[k].fromUserId == u && s.rows[k].status == Pending
    ensures ProperEdges(s) ==>
      && d.incomingPending !! d.followers && d.incomingPending !! d.following && d.incomingPending !! d.outgoingPending
      && d.followers !! d.following && d.followers !! d.outgoingPending
      && d.following !! d.outgoingPending
    ensures forall k :: k in d.incomingPending + d.followers + d.following + d.outgoingPending <==>
      && k in s.rows
      && (s.rows[k].fromUserId == u || s.rows[k].toUserId == u)
      && s.rows[k].status != Rejected
  {
    var d := Dashboard(
      Where(s, (r: FollowRequest) => r.toUserId == u && r.status == Pending),
      Where(s, (r: FollowRequest) => r.toUserId == u && r.status == Accepted),
      Where(s, (r: FollowRequest) => r.fromUserId == u && r.status == Accepted),
      Where(s, (r: FollowRequest) => r.fromUserId == u && r.status == Pending));
    DashboardDisjoint(s, u, d);
    d
  }

  /** The lists of a caller's dashboard share no request: a request to and from `u` would be a self edge. */
  lemma DashboardDisjoint(s: FollowStore, u: UserId, d: Dashboard)
    requires forall k :: k in d.incomingPending <==> k in s.rows && s.rows[k].toUserId == u && s.rows[k].status == Pending
    requires forall k :: k in d.followers <==> k in s.rows && s.rows[k].toUserId == u && s.rows[k].status == Accepted
    requires forall k :: k in d.following <==> k in s.rows && s.rows[k].fromUserId == u && s.rows[k].status == Accepted
    requires forall k :: k in d.outgoingPending <==> k in s.rows && s.rows[k].fromUserId == u && s.rows[k].status == Pending
    ensures ProperEdges(s) ==>
      && d.incomingPending !! d.followers && d.incomingPending !! d.following && d.incomingPending !! d.outgoingPending
      && d.followers !! d.following && d.followers !! d.outgoingPending
      && d.following !! d.outgoingPending
  {
    if ProperEdges(s) {
      forall k | k in s.rows ensures s.rows[k].fromUserId != s.rows[k].toUserId {
      }
      assert forall k :: !(k in d.incomingPending && k in d.outgoingPending);
      assert forall k :: !(k in d.followers && k in d.following);
    }
    assert forall k :: !(k in d.incomingPending && k in d.followers);
    assert forall k :: !(k in d.incomingPending && k in d.following);
    assert forall k :: !(k in d.followers && k in d.outgoingPending);
    assert forall k :: !(k in d.following && k in d.outgoingPending);
  }

  /** A sends to B, B accepts: A is among B's followers and B among the ones A follows. */
  lemma SendThenAccept(s: FollowStore, a: UserId, b: UserId, t1: Time, t2: Time)
    requires Inv(s) && !IsBlank(b) && a != b
    requires forall k :: k in s.rows ==> !IsEdge(s.rows[k], a, b)
    ensures var s1 := Send(s, Some(a), b, t1);
      var s2 := Accept(s1.store, Some(b), s.nextId, t2);
      && s1.outcome == Ok && s2.outcome == Ok
      && s.nextId in s2.store.rows
      && s2.store.rows[s.nextId] == FollowRequest(a, b, Accepted, t1, Some(t2))
      && s.nextId in Index(s2.store, b).followers
      && s.nextId in Index(s2.store, a).following
      && s.nextId !in Index(s2.store, b).incomingPending
  {
    SendCreatesEdge(s, a, b, t1);
  }

  /** Sent, rejected, sent again: the same row is Pending once more and no row was added. */
  lemma ResendAfterRejection(s: FollowStore, a: UserId, b: UserId, t1: Time, t2: Time, t3: Time, s1: FollowStore, s2: FollowStore)
    requires Inv(s) && !IsBlank(b) && a != b
    requires forall k :: k in s.rows ==> !IsEdge(s.rows[k], a, b)
    requires s1 == Send(s, Some(a), b, t1).store
    requires s2 == Reject(s1, Some(b), s.nextId, t2).store
    ensures Valid(s2)
    ensures var s3 := Send(s2, Some(a), b, t3);
      && s3.outcome == Ok
      && s3.store.rows.Keys == s1.rows.Keys
      && s.nextId in s3.store.rows
      && s3.store.rows[s.nextId] == FollowRequest(a, b, Pending, t3, None)
  {
    SendCreatesEdge(s, a, b, t1);
    SendPreservesInv(s, Some(a), b, t1);
    RespondPreservesInv(s1, Some(b), s.nextId, t2);
    SendReusesRejected(s2, a, b, t3, s.nextId);
  }
}

=== FILE: group_models.dfy ===
/**
  The group entities, their declared defaults and length bounds, and the
  predicates the group views derive from a caller's membership.
 */
module GroupModels {
  import opened Common
  import opened Text
  import opened Tables

  /** A membership is requested or granted; there is no Rejected state, a refused join is a deleted row. */
  datatype GroupMemberStatus = Pending | Accepted

  /** The role inside a group, independent of the status. */
  datatype GroupRole = Member | Moderator

  datatype Group = Group(name: string, description: string, createdById: UserId, createdAt: Time)

  datatype GroupMember = GroupMember(groupId: Id, userId: UserId, role: GroupRole, status: GroupMemberStatus, createdAt: Time)

  datatype GroupMessage = GroupMessage(groupId: Id, userId: UserId, title: string, content: string, createdAt: Time)

  const NameMaxLength: nat := 120
  const DescriptionMaxLength: nat := 500
  const TitleMaxLength: nat := 200
  const ContentMaxLength: nat := 1000

  /** `[Required, StringLength(max)]` on a string: not blank and at most `max` characters. */
  predicate RequiredWithin(s: string, max: nat) {
    !IsBlank(s) && |s| <= max
  }

  /** The annotations on `Group`. */
  predicate GroupFieldsValid(g: Group) {
    RequiredWithin(g.name, NameMaxLength) && RequiredWithin(g.description, DescriptionMaxLength)
  }

  /** The annotations on `GroupMessage`. */
  predicate MessageFieldsValid(m: GroupMessage) {
    RequiredWithin(m.title, TitleMaxLength) && RequiredWithin(m.content, ContentMaxLength)
  }

  /** A membership as `new GroupMember { GroupId, UserId }` builds it: role and status keep their defaults. */
  function NewMembership(groupId: Id, userId: UserId, now: Time): (m: GroupMember)
    ensures m.role == Member && m.status == Pending
    ensures m.groupId == groupId && m.userId == userId
  {
    GroupMember(groupId, userId, Member, Pending, now)
  }

  /** The form posted to create a group. */
  datatype GroupCreateInput = GroupCreateInput(name: string, description: string)

  /** The annotations on `GroupCreateViewModel`. */
  predicate CreateInputValid(m: GroupCreateInput) {
    RequiredWithin(m.name, NameMaxLength) && RequiredWithin(m.description, DescriptionMaxLength)
  }

  /** The details view's `IsModerator`: role Moderator and status Accepted. */
  predicate IsModerator(status: Option<GroupMemberStatus>, role: Option<GroupRole>)
    ensures IsModerator(status, role) ==> IsMember(status) && role.Some?
    ensures role == Some(Member) ==> !IsModerator(status, role)
  {
    role == Some(Moderator) && status == Some(Accepted)
  }

  /** The details view's `IsMember`: status Accepted, whatever the role. */
  predicate IsMember(status: Option<GroupMemberStatus>)
    ensures IsMember(status) <==> status.Some? && status.value != Pending
  {
    match status
    case Some(Accepted) => true
    case _ => false
  }

  /** A moderator is a member; a pending moderator row makes the caller neither. */
  lemma ModeratorIsMember(status: Option<GroupMemberStatus>, role: Option<GroupRole>)
    ensures IsModerator(status, role) ==> IsMember(status)
    ensures status == Some(Pending) ==> !IsModerator(status, role) && !IsMember(status)
    ensures status.None? ==> !IsModerator(status, role) && !IsMember(status)
  {
  }

  /** The group `Create` builds from the form: trimmed name and description. */
  function NewGroup(m: GroupCreateInput, creator: UserId, now: Time): Group {
    Group(Trim(m.name), Trim(m.description), creator, now)
  }

  /** The creation form's bounds, checked on the raw input, also hold of the trimmed group. */
  lemma TrimmedInputFitsGroup(m: GroupCreateInput, creator: UserId, now: Time)
    requires CreateInputValid(m)
    ensures GroupFieldsValid(NewGroup(m, creator, now))
  {
    TrimKeepsContent(m.name);
    TrimKeepsContent(m.description);
  }
}

=== FILE: groups.dfy ===
/**
  Group membership, moderation and messaging. Each (group, user) pair has no
  row, a Pending row or an Accepted row, with the role Member or Moderator.
  Moderation and group deletion are gated by "the caller has an Accepted
  Moderator row in this group"; message edits and deletions by authorship or
  that same moderator status; posting by an Accepted row.
 */
module Groups {
  import opened Common
  import opened Text
  import opened Tables
  import opened GroupModels

  /** The three tables the group actions read and write. */
  datatype GroupStore = GroupStore(groups: Table<Group>, members: Table<GroupMember>, messages: Table<GroupMessage>)

  /** Which child rows the store removes with their group; its delete rule is not part of this model. */
  datatype Cascade = Cascade(members: bool, messages: bool)

  /** Every table draws its ids from its own counter. */
  ghost predicate StoreValid(s: GroupStore) {
    Valid(s.groups) && Valid(s.members) && Valid(s.messages)
  }

  /** The row is the membership of user `u` in group `g`. */
  predicate IsRowOf(m: GroupMember, g: Id, u: UserId) {
    m.groupId == g && m.userId == u
  }

  /** The row makes `u` an accepted moderator of `g`. */
  predicate IsModeratorRow(m: GroupMember, g: Id, u: UserId) {
    IsRowOf(m, g, u) && m.role == Moderator && m.status == Accepted
  }

  /** The row makes `u` an accepted member (of any role) of `g`. */
  predicate IsAcceptedRow(m: GroupMember, g: Id, u: UserId) {
    IsRowOf(m, g, u) && m.status == Accepted
  }

  /** At most one membership per (group, user). */
  ghost predicate UniqueMembership(t: Table<GroupMember>) {
    forall j, k :: j in t.rows && k in t.rows && IsRowOf(t.rows[j], t.rows[k].groupId, t.rows[k].userId) ==> j == k
  }

  /** Members and messages only ever name group ids the store has handed out. */
  ghost predicate IssuedGroupIds(s: GroupStore) {
    && (forall k :: k in s.members.rows ==> s.members.rows[k].groupId < s.groups.nextId)
    && (forall k :: k in s.messages.rows ==> s.messages.rows[k].groupId < s.groups.nextId)
  }

  /** Every stored message fits its `nvarchar(1000)` column: a longer one fails the save. */
  ghost predicate MessagesFit(s: GroupStore) {
    forall k :: k in s.messages.rows ==> |s.messages.rows[k].content| <= ContentMaxLength
  }

  /** The invariant every reachable group store keeps. */
  ghost predicate Inv(s: GroupStore) {
    StoreValid(s) && UniqueMembership(s.members) && IssuedGroupIds(s) && MessagesFit(s)
  }

  /** The first membership row of `u` in `g`, in any status. */
  function MembershipOf(t: Table<GroupMember>, g: Id, u: UserId): Option<Id>
    requires Valid(t)
  {
    FirstWhere(t, (m: GroupMember) => IsRowOf(m, g, u))
  }

  /** The moderator query of ApproveMember, RejectMember and DeleteGroup. */
  predicate HasModeratorRow(t: Table<GroupMember>, g: Id, u: UserId)
    requires Valid(t)
    ensures HasModeratorRow(t, g, u) <==> exists k :: k in t.rows && IsModeratorRow(t.rows[k], g, u)
  {
    FirstWhere(t, (m: GroupMember) => IsModeratorRow(m, g, u)).Some?
  }

  /** The accepted-membership query of PostMessage. */
  predicate HasAcceptedRow(t: Table<GroupMember>, g: Id, u: UserId)
    requires Valid(t)
    ensures HasAcceptedRow(t, g, u) <==> exists k :: k in t.rows && IsAcceptedRow(t.rows[k], g, u)
  {
    FirstWhere(t, (m: GroupMember) => IsAcceptedRow(m, g, u)).Some?
  }

  /** The moderator check of EditMessage and DeleteMessage: the first row of `u` in `g` is an accepted moderator. */
  predicate FirstRowModerates(t: Table<GroupMember>, g: Id, u: UserId)
    requires Valid(t)
  {
    match MembershipOf(t, g, u)
    case None => false
    case Some(k) => IsModerator(Some(t.rows[k].status), Some(t.rows[k].role))
  }

  /** With one row per (group, user), the two ways the controller checks moderator status agree. */
  lemma ModeratorChecksAgree(t: Table<GroupMember>, g: Id, u: UserId)
    requires Valid(t) && UniqueMembership(t)
    ensures FirstRowModerates(t, g, u) <==> HasModeratorRow(t, g, u)
  {
    if HasModeratorRow(t, g, u) {
      var k :| k in t.rows && IsModeratorRow(t.rows[k], g, u);
      var f := MembershipOf(t, g, u);
      assert f.Some?;
      assert IsRowOf(t.rows[f.value], t.rows[k].groupId, t.rows[k].userId);
    }
  }

  /** Without that invariant they can disagree: a user with a Member row and a later Moderator row
      in one group passes the moderation query but fails the message-edit check. */
  lemma ModeratorChecksDisagreeOnDuplicates()
    ensures var t := Table(map[1 := GroupMember(7, "u", Member, Accepted, 0), 2 := GroupMember(7, "u", Moderator, Accepted, 0)], 3);
      Valid(t) && !UniqueMembership(t) && HasModeratorRow(t, 7, "u") && !FirstRowModerates(t, 7, "u")
  {
    var t := Table(map[1 := GroupMember(7, "u", Member, Accepted, 0), 2 := GroupMember(7, "u", Moderator, Accepted, 0)], 3);
    assert IsModeratorRow(t.rows[2], 7, "u");
    assert IsRowOf(t.rows[1], t.rows[2].groupId, t.rows[2].userId);
    assert MembershipOf(t, 7, "u") == Some(1);
  }

  /** May `u` edit or delete `msg`: its author, or an accepted moderator of its group. */
  predicate MayModify(t: Table<GroupMember>, msg: GroupMessage, u: UserId)
    requires Valid(t)
    ensures msg.userId == u ==> MayModify(t, msg, u)
    ensures MayModify(t, msg, u) ==> msg.userId == u || HasModeratorRow(t, msg.groupId, u)
  {
    msg.userId == u || FirstRowModerates(t, msg.groupId, u)
  }

  // ---------------------------------------------------------------- Create

  /** Create a group; its creator becomes its accepted moderator. */
  function Create(s: GroupStore, caller: Option<UserId>, m: GroupCreateInput, now: Time): (r: Response<GroupStore>)
    requires StoreValid(s)
    ensures StoreValid(r.store)
    ensures r.outcome == Challenge <==> caller.None?
    ensures r.outcome.Ok? <==> caller.Some? && CreateInputValid(m)
    ensures caller.Some? && !CreateInputValid(m) ==> r.outcome == Unchanged(InvalidInput)
    ensures !r.outcome.Ok? ==> r.store == s
    ensures r.outcome.Ok? ==>
      var g := s.groups.nextId;
      && r.store.groups.rows == s.groups.rows[g := NewGroup(m, caller.value, now)]
      && g !in s.groups.rows
      && GroupFieldsValid(r.store.groups.rows[g])
      && r.store.members.rows == s.members.rows[s.members.nextId := GroupMember(g, caller.value, Moderator, Accepted, now)]
      && s.members.nextId !in s.members.rows
      && r.store.messages == s.messages
  {
    match caller
    case None => Response(Challenge, s)
    case Some(u) =>
      if !CreateInputValid(m) then
        Response(Unchanged(InvalidInput), s)
      else
        TrimmedInputFitsGroup(m, u, now);
        var (groups, g) := Insert(s.groups, NewGroup(m, u, now));
        var (members, _) := Insert(s.members, GroupMember(g, u, Moderator, Accepted, now));
        Response(Ok, s.(groups := groups, members := members))
  }

  /** A new group's only membership is its creator, as accepted moderator. */
  lemma CreateSeedsModerator(s: GroupStore, u: UserId, m: GroupCreateInput, now: Time)
    requires Inv(s) && CreateInputValid(m)
    ensures var r := Create(s, Some(u), m, now); var g := s.groups.nextId;
      && r.outcome == Ok
      && (forall k :: k in r.store.members.rows && r.store.members.rows[k].groupId == g <==> k == s.members.nextId)
      && HasModeratorRow(r.store.members, g, u)
      && MemberCount(r.store, g) == 1
  {
    var r := Create(s, Some(u), m, now);
    var g := s.groups.nextId;
    SoleRowOfNewGroup(s.members, r.store, GroupMember(g, u, Moderator, Accepted, now));
  }

  /** Adding the first row of a group whose id no row names yet makes it that group's only row. */
  lemma SoleRowOfNewGroup(t: Table<GroupMember>, s': GroupStore, row: GroupMember)
    requires t.nextId !in t.rows
    requires forall k :: k in t.rows ==> t.rows[k].groupId < row.groupId
    requires s'.members.rows == t.rows[t.nextId := row]
    requires row.role == Moderator && row.status == Accepted
    ensures forall k :: k in s'.members.rows && s'.members.rows[k].groupId == row.groupId <==> k == t.nextId
    ensures exists k :: k in s'.members.rows && IsModeratorRow(s'.members.rows[k], row.groupId, row.userId)
    ensures AcceptedMembers(s', row.groupId) == {t.nextId}
    ensures MemberCount(s', row.groupId) == 1
  {
    var rows := s'.members.rows;
    assert IsModeratorRow(rows[t.nextId], row.groupId, row.userId);
    forall k ensures k in rows && rows[k].groupId == row.groupId <==> k == t.nextId {
      if k in t.rows && k != t.nextId {
        assert t.rows[k].groupId < row.groupId;
      }
    }
  }

  /** Creation keeps one row per (group, user): the new group has no rows before its creator's. */
  lemma CreatePreservesInv(s: GroupStore, caller: Option<UserId>, m: GroupCreateInput, now: Time)
    requires Inv(s)
    ensures Inv(Create(s, caller, m, now).store)
  {
    var r := Create(s, caller, m, now);
    if r.outcome.Ok? {
      var row := GroupMember(s.groups.nextId, caller.value, Moderator, Accepted, now);
      AddMemberPreservesUnique(s.members, s.members.nextId, row);
    }
  }

  // ---------------------------------------------------------------- Join and Leave

  /** Ask to join group `g`: a Pending Member row, unless the caller already has a row there. */
  function Join(s: GroupStore, caller: Option<UserId>, g: Id, now: Time): (r: Response<GroupStore>)
    requires StoreValid(s)
    ensures StoreValid(r.store)
    ensures r.outcome == Challenge <==> caller.None?
    ensures r.outcome == NotFound <==> caller.Some? && g !in s.groups.rows
    ensures r.outcome.Ok? <==>
      caller.Some? && g in s.groups.rows && forall k :: k in s.members.rows ==> !IsRowOf(s.members.rows[k], g, caller.value)
    ensures !r.outcome.Ok? ==> r.store == s
    ensures r.outcome.Ok? ==>
      && s.members.nextId !in s.members.rows
      && r.store.members.rows == s.members.rows[s.members.nextId := GroupMember(g, caller.value, Member, Pending, now)]
      && r.store.groups == s.groups && r.store.messages == s.messages
  {
    match caller
    case None => Response(Challenge, s)
    case Some(u) =>
      if g !in s.groups.rows then
        Response(NotFound, s)
      else if MembershipOf(s.members, g, u).Some? then
        Response(Unchanged(AlreadyMember), s)
      else
        var (members, _) := Insert(s.members, NewMembership(g, u, now));
        Response(Ok, s.(members := members))
  }

  /** A second Join is a no-op whatever the status of the existing row. */
  lemma JoinTwiceIsNoOp(s: GroupStore, u: UserId, g: Id, t1: Time, t2: Time)
    requires StoreValid(s) && g in s.groups.rows
    ensures var s1 := Join(s, Some(u), g, t1).store;
      Join(s1, Some(u), g, t2) == Response(Unchanged(AlreadyMember), s1)
  {
    var r1 := Join(s, Some(u), g, t1);
    if r1.outcome.Ok? {
      assert IsRowOf(r1.store.members.rows[s.members.nextId], g, u);
    } else {
      var k :| k in s.members.rows && IsRowOf(s.members.rows[k], g, u);
    }
  }

  /** Join keeps one row per (group, user), and only ever names an existing group. */
  lemma JoinPreservesInv(s: GroupStore, caller: Option<UserId>, g: Id, now: Time)
    requires Inv(s)
    ensures Inv(Join(s, caller, g, now).store)
  {
    var r := Join(s, caller, g, now);
    if r.outcome.Ok? {
      AddMemberPreservesUnique(s.members, s.members.nextId, NewMembership(g, caller.value, now));
    }
  }

  /** Leave group `g`: delete the caller's own row there, if any. */
  function Leave(s: GroupStore, caller: Option<UserId>, g: Id): (r: Response<GroupStore>)
    requires StoreValid(s)
    ensures StoreValid(r.store)
    ensures r.outcome == Challenge <==> caller.None?
    ensures r.outcome.Ok? <==> caller.Some? && exists k :: k in s.members.rows && IsRowOf(s.members.rows[k], g, caller.value)
    ensures caller.Some? && !r.outcome.Ok? ==> r.outcome == Unchanged(NotAMember)
    ensures !r.outcome.Ok? ==> r.store == s
    ensures r.outcome.Ok? ==>
      exists k :: k in s.members.rows && IsRowOf(s.members.rows[k], g, caller.value) && r.store.members.rows == s.members.rows - {k}
    ensures r.store.groups == s.groups && r.store.messages == s.messages
    ensures r.store.members.nextId == s.members.nextId
  {
    match caller
    case None => Response(Challenge, s)
    case Some(u) =>
      match MembershipOf(s.members, g, u)
      case None => Response(Unchanged(NotAMember), s)
      case Some(k) => Response(Ok, s.(members := s.members.(rows := s.members.rows - {k})))
  }

  /** After leaving, the caller has no row in the group; the invariant survives. */
  lemma LeaveRemovesOwnRow(s: GroupStore, u: UserId, g: Id)
    requires Inv(s)
    ensures var r := Leave(s, Some(u), g);
      && Inv(r.store)
      && (forall k :: k in r.store.members.rows ==> !IsRowOf(r.store.members.rows[k], g, u))
      && (forall k :: k in r.store.members.rows ==> k in s.members.rows && r.store.members.rows[k] == s.members.rows[k])
  {
    var r := Leave(s, Some(u), g);
    if r.outcome.Ok? {
      var k0 := MembershipOf(s.members, g, u).value;
      forall k | k in r.store.members.rows ensures !IsRowOf(r.store.members.rows[k], g, u) {
      }
      RemoveMembersPreservesUnique(s.members, r.store.members);
    }
  }

  /** Nothing stops the last moderator from leaving: the group is then left without any moderator. */
  lemma LastModeratorMayLeave(s: GroupStore, u: UserId, g: Id)
    requires Inv(s) && HasModeratorRow(s.members, g, u)
    requires forall k :: k in s.members.rows && IsModeratorRow(s.members.rows[k], g, s.members.rows[k].userId) ==> s.members.rows[k].userId == u
    ensures var r := Leave(s, Some(u), g);
      && r.outcome == Ok
      && forall v :: !HasModeratorRow(r.store.members, g, v)
  {
    var r := Leave(s, Some(u), g);
    LeaveRemovesOwnRow(s, u, g);
    var k :| k in s.members.rows && IsModeratorRow(s.members.rows[k], g, u);
    assert IsRowOf(s.members.rows[k], g, u);
  }

  // ---------------------------------------------------------------- Moderation

  /** A moderator of the target's group accepts membership `id`; only its status changes. */
  function ApproveMember(s: GroupStore, caller: Option<UserId>, id: Id): (r: Response<GroupStore>)
    requires StoreValid(s)
    ensures StoreValid(r.store)
    ensures r.outcome == Challenge <==> caller.None?
    ensures r.outcome == NotFound <==> caller.Some? && id !in s.members.rows
    ensures r.outcome == Forbid <==>
      caller.Some? && id in s.members.rows && !HasModeratorRow(s.members, s.members.rows[id].groupId, caller.value)
    ensures r.outcome.Ok? <==>
      caller.Some? && id in s.members.rows && HasModeratorRow(s.members, s.members.rows[id].groupId, caller.value)
    ensures !r.outcome.Ok? ==> r.store == s
    ensures r.outcome.Ok? ==>
      && r.store.members.rows.Keys == s.members.rows.Keys
      && r.store.members.rows[id] == s.members.rows[id].(status := Accepted)
      && (forall k :: k in s.members.rows && k != id ==> r.store.members.rows[k] == s.members.rows[k])
      && r.store.groups == s.groups && r.store.messages == s.messages && r.store.members.nextId == s.members.nextId
  {
    match caller
    case None => Response(Challenge, s)
    case Some(u) =>
      if id !in s.members.rows then
        Response(NotFound, s)
      else if !HasModeratorRow(s.members, s.members.rows[id].groupId, u) then
        Response(Forbid, s)
      else
        var target := s.members.rows[id];
        Response(Ok, s.(members := s.members.(rows := s.members.rows[id := target.(status := Accepted)])))
  }

  /** Approval keeps the target's group, user and role, so the invariant survives. */
  lemma ApprovePreservesInv(s: GroupStore, caller: Option<UserId>, id: Id)
    requires Inv(s)
    ensures Inv(ApproveMember(s, caller, id).store)
  {
    var r := ApproveMember(s, caller, id);
    if r.outcome.Ok? {
      ReplaceMemberPreservesUnique(s.members, id, r.store.members.rows[id]);
    }
  }

  /** Approving a Pending row adds one to the group's member count. */
  lemma ApproveCountsMember(s: GroupStore, u: UserId, id: Id)
    requires StoreValid(s) && id in s.members.rows && s.members.rows[id].status == Pending
    requires HasModeratorRow(s.members, s.members.rows[id].groupId, u)
    ensures var g := s.members.rows[id].groupId;
      MemberCount(ApproveMember(s, Some(u), id).store, g) == MemberCount(s, g) + 1
  {
    var g := s.members.rows[id].groupId;
    var r := ApproveMember(s, Some(u), id);
    assert AcceptedMembers(r.store, g) == AcceptedMembers(s, g) + {id};
  }

  /** A moderator of the target's group deletes membership `id`, whatever its status or role. */
  function RejectMember(s: GroupStore, caller: Option<UserId>, id: Id): (r: Response<GroupStore>)
    requires StoreValid(s)
    ensures StoreValid(r.store)
    ensures r.outcome == Challenge <==> caller.None?
    ensures r.outcome == NotFound <==> caller.Some? && id !in s.members.rows
    ensures r.outcome == Forbid <==>
      caller.Some? && id in s.members.rows && !HasModeratorRow(s.members, s.members.rows[id].groupId, caller.value)
    ensures r.outcome.Ok? <==>
      caller.Some? && id in s.members.rows && HasModeratorRow(s.members, s.members.rows[id].groupId, caller.value)
    ensures !r.outcome.Ok? ==> r.store == s
    ensures r.outcome.Ok? ==>
      && r.store.members.rows == s.members.rows - {id}
      && id in s.members.rows
      && r.store.groups == s.groups && r.store.messages == s.messages && r.store.members.nextId == s.members.nextId
  {
    match caller
    case None => Response(Challenge, s)
    case Some(u) =>
      if id !in s.members.rows then
        Response(NotFound, s)
      else if !HasModeratorRow(s.members, s.members.rows[id].groupId, u) then
        Response(Forbid, s)
      else
        Response(Ok, s.(members := s.members.(rows := s.members.rows - {id})))
  }

  /** Rejection only deletes a row, so the invariant survives. */
  lemma RejectPreservesInv(s: GroupStore, caller: Option<UserId>, id: Id)
    requires Inv(s)
    ensures Inv(RejectMember(s, caller, id).store)
  {
    RemoveMembersPreservesUnique(s.members, RejectMember(s, caller, id).store.members);
  }

  /** A moderator of group `g` deletes it; the child rows go as `cascade` says. */
  function DeleteGroup(s: GroupStore, caller: Option<UserId>, g: Id, cascade: Cascade): (r: Response<GroupStore>)
    requires StoreValid(s)
    ensures StoreValid(r.store)
    ensures r.outcome == Challenge <==> caller.None?
    ensures r.outcome == NotFound <==> caller.Some? && g !in s.groups.rows
    ensures r.outcome == Forbid <==> caller.Some? && g in s.groups.rows && !HasModeratorRow(s.members, g, caller.value)
    ensures r.outcome.Ok? <==> caller.Some? && g in s.groups.rows && HasModeratorRow(s.members, g, caller.value)
    ensures !r.outcome.Ok? ==> r.store == s
    ensures r.outcome.Ok? ==>
      && r.store.groups.rows == s.groups.rows - {g}
      && r.store.groups.nextId == s.groups.nextId
      && (forall k :: k in r.store.members.rows ==> k in s.members.rows && r.store.members.rows[k] == s.members.rows[k])
      && (forall k :: k in s.members.rows && s.members.rows[k].groupId != g ==> k in r.store.members.rows)
      && (cascade.members ==> forall k :: k in r.store.members.rows ==> r.store.members.rows[k].groupId != g)
      && (!cascade.members ==> r.store.members == s.members)
      && (forall k :: k in r.store.messages.rows ==> k in s.messages.rows && r.store.messages.rows[k] == s.messages.rows[k])
      && (forall k :: k in s.messages.rows && s.messages.rows[k].groupId != g ==> k in r.store.messages.rows)
      && (cascade.messages ==> forall k :: k in r.store.messages.rows ==> r.store.messages.rows[k].groupId != g)
      && (!cascade.messages ==> r.store.messages == s.messages)
  {
    match caller
    case None => Response(Challenge, s)
    case Some(u) =>
      if g !in s.groups.rows then
        Response(NotFound, s)
      else if !HasModeratorRow(s.members, g, u) then
        Response(Forbid, s)
      else
        var members := if cascade.members then RemoveWhere(s.members, (m: GroupMember) => m.groupId == g) else s.members;
        var messages := if cascade.messages then RemoveWhere(s.messages, (m: GroupMessage) => m.groupId == g) else s.messages;
        Response(Ok, GroupStore(s.groups.(rows := s.groups.rows - {g}), members, messages))
  }

  /** Deleting a group only removes rows, so the invariant survives. */
  lemma DeleteGroupPreservesInv(s: GroupStore, caller: Option<UserId>, g: Id, cascade: Cascade)
    requires Inv(s)
    ensures Inv(DeleteGroup(s, caller, g, cascade).store)
  {
    RemoveMembersPreservesUnique(s.members, DeleteGroup(s, caller, g, cascade).store.members);
  }

  // ---------------------------------------------------------------- Messages

  /** Post `content` to group `g`: blank content is refused first, then non-members; trimmed content
      longer than the column fails the save. */
  function PostMessage(s: GroupStore, caller: Option<UserId>, g: Id, content: string, now: Time): (r: Response<GroupStore>)
    requires StoreValid(s)
    ensures StoreValid(r.store)
    ensures r.outcome == Challenge <==> caller.None?
    ensures caller.Some? && IsBlank(content) ==> r.outcome == Unchanged(EmptyMessage)
    ensures r.outcome == Forbid <==> caller.Some? && !IsBlank(content) && !HasAcceptedRow(s.members, g, caller.value)
    ensures r.outcome == ServerError <==>
      caller.Some? && !IsBlank(content) && HasAcceptedRow(s.members, g, caller.value) && |Trim(content)| > ContentMaxLength
    ensures r.outcome.Ok? <==>
      caller.Some? && !IsBlank(content) && HasAcceptedRow(s.members, g, caller.value) && |Trim(content)| <= ContentMaxLength
    ensures !r.outcome.Ok? ==> r.store == s
    ensures r.outcome.Ok? ==>
      && s.messages.nextId !in s.messages.rows
      && r.store.messages.rows == s.messages.rows[s.messages.nextId := GroupMessage(g, caller.value, "", Trim(content), now)]
      && r.store.groups == s.groups && r.store.members == s.members
      && !IsBlank(r.store.messages.rows[s.messages.nextId].content)
      && |r.store.messages.rows[s.messages.nextId].content| <= ContentMaxLength
  {
    match caller
    case None => Response(Challenge, s)
    case Some(u) =>
      if IsBlank(content) then
        Response(Unchanged(EmptyMessage), s)
      else if !HasAcceptedRow(s.members, g, u) then
        Response(Forbid, s)
      else if |Trim(content)| > ContentMaxLength then
        Response(ServerError, s)
      else
        TrimKeepsContent(content);
        var (messages, _) := Insert(s.messages, GroupMessage(g, u, "", Trim(content), now));
        Response(Ok, s.(messages := messages))
  }

  /** An accepted member posting 1001 characters gets a failed save, and nothing is stored. */
  lemma OverlongPostFails(s: GroupStore, u: UserId, g: Id, now: Time)
    requires StoreValid(s) && HasAcceptedRow(s.members, g, u)
    ensures PostMessage(s, Some(u), g, seq(ContentMaxLength + 1, _ => 'x'), now) == Response(ServerError, s)
  {
    var c: string := seq(ContentMaxLength + 1, _ => 'x');
    assert !IsWhiteSpace(c[0]);
    TrimFixesTrimmed(c);
  }

  /** Posting keeps the invariant: an accepted row names an issued group id. */
  lemma PostPreservesInv(s: GroupStore, caller: Option<UserId>, g: Id, content: string, now: Time)
    requires Inv(s)
    ensures Inv(PostMessage(s, caller, g, content, now).store)
  {
    var r := PostMessage(s, caller, g, content, now);
    if r.outcome.Ok? {
      var k :| k in s.members.rows && IsAcceptedRow(s.members.rows[k], g, caller.value);
    }
  }

  /** A posted message never gets a title, so it never satisfies the annotations on `GroupMessage`. */
  lemma PostedMessageLacksTitle(s: GroupStore, u: UserId, g: Id, content: string, now: Time)
    requires StoreValid(s) && PostMessage(s, Some(u), g, content, now).outcome.Ok?
    ensures var m := PostMessage(s, Some(u), g, content, now).store.messages.rows[s.messages.nextId];
      m.title == "" && !MessageFieldsValid(m) && m.content == Trim(content)
  {
  }

  /** The GET of EditMessage: the message, if the caller may edit it. */
  function EditMessageForm(s: GroupStore, caller: Option<UserId>, id: Id): (r: Result<GroupMessage>)
    requires StoreValid(s)
    ensures r == Failure(Challenge) <==> caller.None?
    ensures r == Failure(NotFound) <==> caller.Some? && id !in s.messages.rows
    ensures r == Failure(Forbid) <==>
      caller.Some? && id in s.messages.rows && !MayModify(s.members, s.messages.rows[id], caller.value)
    ensures r.Success? <==> caller.Some? && id in s.messages.rows && MayModify(s.members, s.messages.rows[id], caller.value)
    ensures r.Success? ==> id in s.messages.rows && r.value == s.messages.rows[id]
  {
    match caller
    case None => Failure(Challenge)
    case Some(u) =>
      if id !in s.messages.rows then Failure(NotFound)
      else if !MayModify(s.members, s.messages.rows[id], u) then Failure(Forbid)
      else Success(s.messages.rows[id])
  }

  /** Replace the content of message `id`; authorisation comes before the blank check. */
  function EditMessage(s: GroupStore, caller: Option<UserId>, id: Id, content: string): (r: Response<GroupStore>)
    requires StoreValid(s)
    ensures StoreValid(r.store)
    ensures r.outcome == Challenge <==> caller.None?
    ensures r.outcome == NotFound <==> caller.Some? && id !in s.messages.rows
    ensures r.outcome == Forbid <==>
      caller.Some? && id in s.messages.rows && !MayModify(s.members, s.messages.rows[id], caller.value)
    ensures r.outcome == ServerError <==>
      caller.Some? && id in s.messages.rows && MayModify(s.members, s.messages.rows[id], caller.value) && !IsBlank(content)
      && |Trim(content)| > ContentMaxLength
    ensures r.outcome.Ok? <==>
      caller.Some? && id in s.messages.rows && MayModify(s.members, s.messages.rows[id], caller.value) && !IsBlank(content)
      && |Trim(content)| <= ContentMaxLength
    ensures caller.Some? && id in s.messages.rows && MayModify(s.members, s.messages.rows[id], caller.value) && IsBlank(content) ==>
      r.outcome == Unchanged(EmptyMessage)
    ensures !r.outcome.Ok? ==> r.store == s
    ensures r.outcome.Ok? ==>
      && r.store.messages.rows == s.messages.rows[id := s.messages.rows[id].(content := Trim(content))]
      && r.store.messages.nextId == s.messages.nextId
      && r.store.groups == s.groups && r.store.members == s.members
  {
    match caller
    case None => Response(Challenge, s)
    case Some(u) =>
      if id !in s.messages.rows then
        Response(NotFound, s)
      else if !MayModify(s.members, s.messages.rows[id], u) then
        Response(Forbid, s)
      else if IsBlank(content) then
        Response(Unchanged(EmptyMessage), s)
      else if |Trim(content)| > ContentMaxLength then
        Response(ServerError, s)
      else
        var msg := s.messages.rows[id];
        Response(Ok, s.(messages := s.messages.(rows := s.messages.rows[id := msg.(content := Trim(content))])))
  }

  /** Delete message `id`, under the same authorisation as editing it. */
  function DeleteMessage(s: GroupStore, caller: Option<UserId>, id: Id): (r: Response<GroupStore>)
    requires StoreValid(s)
    ensures StoreValid(r.store)
    ensures r.outcome == Challenge <==> caller.None?
    ensures r.outcome == NotFound <==> caller.Some? && id !in s.messages.rows
    ensures r.outcome.Ok? <==> caller.Some? && id in s.messages.rows && MayModify(s.members, s.messages.rows[id], caller.value)
    ensures caller.Some? && id in s.messages.rows && !r.outcome.Ok? ==> r.outcome == Forbid
    ensures !r.outcome.Ok? ==> r.store == s
    ensures r.outcome.Ok? ==>
      && r.store.messages.rows == s.messages.rows - {id}
      && r.store.messages.nextId == s.messages.nextId
      && r.store.groups == s.groups && r.store.members == s.members
  {
    match caller
    case None => Response(Challenge, s)
    case Some(u) =>
      if id !in s.messages.rows then
        Response(NotFound, s)
      else if !MayModify(s.members, s.messages.rows[id], u) then
        Response(Forbid, s)
      else
        Response(Ok, s.(messages := s.messages.(rows := s.messages.rows - {id})))
  }

  /** Editing a message keeps its group and never touches memberships, so the invariant survives. */
  lemma EditMessagePreservesInv(s: GroupStore, caller: Option<UserId>, id: Id, content: string)
    requires Inv(s)
    ensures Inv(EditMessage(s, caller, id, content).store)
  {
    var e := EditMessage(s, caller, id, content);
    if e.outcome.Ok? {
      assert forall k :: k in e.store.messages.rows ==> e.store.messages.rows[k].groupId == s.messages.rows[k].groupId;
    }
  }

  /** Deleting a message only removes a row, so the invariant survives. */
  lemma DeleteMessagePreservesInv(s: GroupStore, caller: Option<UserId>, id: Id)
    requires Inv(s)
    ensures Inv(DeleteMessage(s, caller, id).store)
  {
    var d := DeleteMessage(s, caller, id);
    if d.outcome.Ok? {
      assert forall k :: k in d.store.messages.rows ==> k in s.messages.rows && d.store.messages.rows[k] == s.messages.rows[k];
    }
  }

  /** The author may always edit, even with no membership left; an accepted moderator may edit
      anyone's message; any other caller is refused. An authorised edit saves unless the text is too long. */
  lemma EditAuthorisation(s: GroupStore, u: UserId, id: Id, content: string)
    requires Inv(s) && id in s.messages.rows && !IsBlank(content)
    ensures var msg := s.messages.rows[id];
      msg.userId == u ==> EditMessage(s, Some(u), id, content).outcome == SavedOrTooLong(content)
    ensures var msg := s.messages.rows[id];
      HasModeratorRow(s.members, msg.groupId, u) ==> EditMessage(s, Some(u), id, content).outcome == SavedOrTooLong(content)
    ensures var msg := s.messages.rows[id];
      msg.userId != u && !HasModeratorRow(s.members, msg.groupId, u) ==> EditMessage(s, Some(u), id, content).outcome == Forbid
  {
    ModeratorChecksAgree(s.members, s.messages.rows[id].groupId, u);
  }

  /** The outcome of saving message text: Ok when the trimmed text fits its column, ServerError otherwise. */
  function SavedOrTooLong(content: string): Outcome {
    if |Trim(content)| <= ContentMaxLength then Ok else ServerError
  }

  // ---------------------------------------------------------------- Views

  /** Ids of the accepted memberships of group `g`. */
  function AcceptedMembers(s: GroupStore, g: Id): set<Id> {
    Where(s.members, (m: GroupMember) => m.groupId == g && m.status == Accepted)
  }

  /** Ids of the pending memberships of group `g`. */
  function PendingMembers(s: GroupStore, g: Id): set<Id> {
    Where(s.members, (m: GroupMember) => m.groupId == g && m.status == Pending)
  }

  /** The list view's member count: accepted memberships only. */
  function MemberCount(s: GroupStore, g: Id): (n: nat)
    ensures n == 0 <==> forall k :: k in s.members.rows && s.members.rows[k].groupId == g ==> s.members.rows[k].status == Pending
  {
    NoAcceptedMembers(s, g);
    |AcceptedMembers(s, g)|
  }

  /** A group has no accepted members exactly when every one of its rows is still pending. */
  lemma NoAcceptedMembers(s: GroupStore, g: Id)
    ensures |AcceptedMembers(s, g)| == 0 <==>
      forall k :: k in s.members.rows && s.members.rows[k].groupId == g ==> s.members.rows[k].status == Pending
  {
    var a := AcceptedMembers(s, g);
    if forall k :: k in s.members.rows && s.members.rows[k].groupId == g ==> s.members.rows[k].status == Pending {
      assert a == {};
    }
  }

  /** The accepted and the pending lists of a group split its memberships between them. */
  lemma MembersPartition(s: GroupStore, g: Id)
    ensures AcceptedMembers(s, g) !! PendingMembers(s, g)
    ensures forall k :: k in AcceptedMembers(s, g) + PendingMembers(s, g) <==> k in s.members.rows && s.members.rows[k].groupId == g
  {
    assert forall k :: !(k in AcceptedMembers(s, g) && k in PendingMembers(s, g));
  }

  /** The details page of a group. */
  datatype GroupDetails = GroupDetails(
    name: string,
    description: string,
    createdById: UserId,
    membershipStatus: Option<GroupMemberStatus>,
    role: Option<GroupRole>,
    members: set<Id>,
    pendingMembers: set<Id>,
    messages: set<Id>)

  /** Details of group `g` as seen by the caller. */
  function Details(s: GroupStore, caller: Option<UserId>, g: Id): (r: Result<GroupDetails>)
    requires StoreValid(s)
    ensures r == Failure(Challenge) <==> caller.None?
    ensures r == Failure(NotFound) <==> caller.Some? && g !in s.groups.rows
    ensures caller.Some? && g in s.groups.rows ==> r.Success?
    ensures r.Success? ==>
      && r.value.members == AcceptedMembers(s, g)
      && r.value.pendingMembers == PendingMembers(s, g)
      && (forall k :: k in r.value.messages <==> k in s.messages.rows && s.messages.rows[k].groupId == g)
      && (r.value.membershipStatus.None? <==> forall k :: k in s.members.rows ==> !IsRowOf(s.members.rows[k], g, caller.value))
      && (r.value.membershipStatus.Some? <==> r.value.role.Some?)
    ensures r.Success? ==>
      && g in s.groups.rows
      && r.value.name == s.groups.rows[g].name
      && r.value.description == s.groups.rows[g].description
      && r.value.createdById == s.groups.rows[g].createdById
    ensures r.Success? && MembershipOf(s.members, g, caller.value).Some? ==>
      var k := MembershipOf(s.members, g, caller.value).value;
      k in s.members.rows && r.value.membershipStatus == Some(s.members.rows[k].status) && r.value.role == Some(s.members.rows[k].role)
  {
    match caller
    case None => Failure(Challenge)
    case Some(u) =>
      if g !in s.groups.rows then
        Failure(NotFound)
      else
        var group := s.groups.rows[g];
        var mem := MembershipOf(s.members, g, u);
        var status := if mem.Some? then Some(s.members.rows[mem.value].status) else None;
        var role := if mem.Some? then Some(s.members.rows[mem.value].role) else None;
        Success(GroupDetails(
          group.name, group.description, group.createdById, status, role,
          AcceptedMembers(s, g), PendingMembers(s, g),
          Where(s.messages, (m: GroupMessage) => m.groupId == g)))
  }

  /** On the details page, `IsModerator` and `IsMember` mean what the actions check. */
  lemma DetailsFlagsMatchChecks(s: GroupStore, u: UserId, g: Id)
    requires Inv(s) && g in s.groups.rows
    ensures var d := Details(s, Some(u), g).value;
      && (IsModerator(d.membershipStatus, d.role) <==> HasModeratorRow(s.members, g, u))
      && (IsMember(d.membershipStatus) <==> HasAcceptedRow(s.members, g, u))
  {
    ModeratorChecksAgree(s.members, g, u);
    var mem := MembershipOf(s.members, g, u);
    if HasAcceptedRow(s.members, g, u) {
      var k :| k in s.members.rows && IsAcceptedRow(s.members.rows[k], g, u);
      assert IsRowOf(s.members.rows[mem.value], s.members.rows[k].groupId, s.members.rows[k].userId);
    }
  }

  /** One entry of the group list. */
  datatype GroupListItem = GroupListItem(
    name: string,
    description: string,
    memberCount: nat,
    membershipStatus: Option<GroupMemberStatus>,
    isModerator: bool)

  /** Two rows of `u` in one group: the list's per-group lookup cannot be built. */
  predicate DuplicateMembership(t: Table<GroupMember>, u: UserId) {
    exists j, k | j in t.rows && k in t.rows :: j != k && IsRowOf(t.rows[j], t.rows[k].groupId, u) && t.rows[k].userId == u
  }

  /** The caller's memberships keyed by group (`ToDictionary`), or None when a key repeats. */
  function MembershipLookup(t: Table<GroupMember>, u: UserId): (r: Option<map<Id, GroupMember>>)
    ensures r.None? <==> DuplicateMembership(t, u)
    ensures r.Some? ==> forall g :: g in r.value ==> IsRowOf(r.value[g], g, u) && r.value[g] in t.rows.Values
    ensures r.Some? ==> forall k :: k in t.rows && t.rows[k].userId == u ==>
      t.rows[k].groupId in r.value && r.value[t.rows[k].groupId] == t.rows[k]
  {
    if DuplicateMembership(t, u) then
      None
    else
      var m := map k | k in t.rows && t.rows[k].userId == u :: t.rows[k].groupId := t.rows[k];
      assert forall k :: k in t.rows && t.rows[k].userId == u ==> t.rows[k].groupId in m && m[t.rows[k].groupId] == t.rows[k];
      Some(m)
  }

  /** The group list as the caller sees it, keyed by group id; the display order is not modelled. */
  function Index(s: GroupStore, caller: Option<UserId>): (r: Result<map<Id, GroupListItem>>)
    ensures r == Failure(Challenge) <==> caller.None?
    ensures r == Failure(ServerError) <==> caller.Some? && DuplicateMembership(s.members, caller.value)
    ensures r.Success? ==> forall g :: g in r.value <==> g in s.groups.rows
    ensures r.Success? ==> forall g :: g in r.value ==> r.value[g].memberCount == MemberCount(s, g)
    ensures r.Success? ==> forall g :: g in r.value ==>
      g in s.groups.rows && r.value[g].name == s.groups.rows[g].name && r.value[g].description == s.groups.rows[g].description
    ensures r.Success? ==> forall g, k :: g in r.value && k in s.members.rows && IsRowOf(s.members.rows[k], g, caller.value) ==>
      r.value[g].membershipStatus == Some(s.members.rows[k].status)
    ensures r.Success? ==> forall g :: g in r.value && r.value[g].membershipStatus.None? ==>
      forall k :: k in s.members.rows ==> !IsRowOf(s.members.rows[k], g, caller.value)
  {
    match caller
    case None => Failure(Challenge)
    case Some(u) =>
      match MembershipLookup(s.members, u)
      case None => Failure(ServerError)
      case Some(lookup) =>
        var items := map g | g in s.groups.rows :: ListItem(s, lookup, g);
        Success(items)
  }

  /** The list entry of group `g`, given the caller's lookup. */
  function ListItem(s: GroupStore, lookup: map<Id, GroupMember>, g: Id): (item: GroupListItem)
    requires g in s.groups.rows
    ensures item.name == s.groups.rows[g].name && item.description == s.groups.rows[g].description
    ensures item.memberCount == MemberCount(s, g)
    ensures item.membershipStatus == if g in lookup then Some(lookup[g].status) else None
    ensures item.isModerator <==> g in lookup && lookup[g].role == Moderator && lookup[g].status == Accepted
  {
    var group := s.groups.rows[g];
    if g in lookup then
      GroupListItem(group.name, group.description, MemberCount(s, g), Some(lookup[g].status),
        IsModerator(Some(lookup[g].status), Some(lookup[g].role)))
    else
      GroupListItem(group.name, group.description, MemberCount(s, g), None, false)
  }

  /** With one row per (group, user) the list never fails, and its moderator flag is the moderation check. */
  lemma IndexFlagsMatchChecks(s: GroupStore, u: UserId)
    requires Inv(s)
    ensures Index(s, Some(u)).Success?
    ensures forall g :: g in s.groups.rows ==>
      (Index(s, Some(u)).value[g].isModerator <==> HasModeratorRow(s.members, g, u))
  {
    var lookup := MembershipLookup(s.members, u).value;
    forall g | g in s.groups.rows
      ensures Index(s, Some(u)).value[g].isModerator <==> HasModeratorRow(s.members, g, u)
    {
      if HasModeratorRow(s.members, g, u) {
        var k :| k in s.members.rows && IsModeratorRow(s.members.rows[k], g, u);
        assert lookup[g] == s.members.rows[k];
      }
    }
  }

  // ---------------------------------------------------------------- Helpers for the invariant

  /** Adding a row under a new id keeps one row per (group, user) when its pair is new. */
  lemma AddMemberPreservesUnique(t: Table<GroupMember>, k: Id, row: GroupMember)
    requires UniqueMembership(t) && k !in t.rows
    requires forall j :: j in t.rows ==> !IsRowOf(t.rows[j], row.groupId, row.userId)
    ensures UniqueMembership(t.(rows := t.rows[k := row]))
  {
    var m := t.rows[k := row];
    forall i, j | i in m && j in m && IsRowOf(m[i], m[j].groupId, m[j].userId)
      ensures i == j
    {
      if i == k && j != k {
        assert IsRowOf(t.rows[j], row.groupId, row.userId);
      }
    }
  }

  /** Rewriting a row without moving it to another (group, user) keeps memberships unique. */
  lemma ReplaceMemberPreservesUnique(t: Table<GroupMember>, k: Id, row: GroupMember)
    requires UniqueMembership(t) && k in t.rows
    requires IsRowOf(row, t.rows[k].groupId, t.rows[k].userId)
    ensures UniqueMembership(t.(rows := t.rows[k := row]))
  {
    var m := t.rows[k := row];
    forall i, j | i in m && j in m && IsRowOf(m[i], m[j].groupId, m[j].userId)
      ensures i == j
    {
      assert IsRowOf(t.rows[i], t.rows[j].groupId, t.rows[j].userId);
    }
  }

  /** Keeping a subset of the rows, unchanged, keeps memberships unique. */
  lemma RemoveMembersPreservesUnique(t: Table<GroupMember>, t': Table<GroupMember>)
    requires UniqueMembership(t)
    requires forall k :: k in t'.rows ==> k in t.rows && t'.rows[k] == t.rows[k]
    ensures UniqueMembership(t')
  {
    forall i, j | i in t'.rows && j in t'.rows && IsRowOf(t'.rows[i], t'.rows[j].groupId, t'.rows[j].userId)
      ensures i == j
    {
      assert IsRowOf(t.rows[i], t.rows[j].groupId, t.rows[j].userId);
    }
  }
}

=== FILE: profiles.dfy ===
/**
  User profiles: the public search, the details page with its privacy rule,
  and the edit action. The users table is a sequence in store order.
 */
module Profiles {
  import opened Common
  import opened Text
  import opened Sorting

  /** The profile fields of an identity-store user. */
  datatype User = User(id: UserId, fullName: string, bio: string, profileImageUrl: string, isPrivate: bool)

  /** The key search results are ordered by. */
  function FullName(u: User): string {
    u.fullName
  }

  /** The search filter: the lowered full name contains the trimmed, lowered query. */
  predicate NameMatches(u: User, query: string) {
    Contains(ToLower(u.fullName), ToLower(Trim(query)))
  }

  /** The elements of `s` satisfying `p`, each kept as often as it occurs and in order (LINQ `Where`). */
  function Filter<T(!new)>(s: seq<T>, p: T -> bool): (r: seq<T>)
    ensures forall i :: 0 <= i < |r| ==> p(r[i])
    ensures forall x :: multiset(r)[x] == if p(x) then multiset(s)[x] else 0
  {
    if s == [] then
      []
    else
      assert s == [s[0]] + s[1..];
      assert multiset(s) == multiset{s[0]} + multiset(s[1..]);
      var rest := Filter(s[1..], p);
      if p(s[0]) then [s[0]] + rest else rest
  }

  /** The users whose name matches `query`, each kept as often as it occurs. */
  function Matching(users: seq<User>, query: string): (r: seq<User>)
    ensures forall i :: 0 <= i < |r| ==> NameMatches(r[i], query)
    ensures forall u :: multiset(r)[u] == if NameMatches(u, query) then multiset(users)[u] else 0
  {
    Filter(users, (u: User) => NameMatches(u, query))
  }

  /** The profile search (`Index`): every profile for a blank query, else the matching ones; sorted by name. */
  function Search(users: seq<User>, query: string, leq: (string, string) -> bool): (r: seq<User>)
    requires TotalPreorder(leq)
    ensures SortedBy(r, FullName, leq)
    ensures IsBlank(query) ==> multiset(r) == multiset(users)
    ensures !IsBlank(query) ==> forall u :: u in r <==> u in users && NameMatches(u, query)
    ensures !IsBlank(query) ==> forall u :: NameMatches(u, query) ==> multiset(r)[u] == multiset(users)[u]
    ensures multiset(r) <= multiset(users)
  {
    if IsBlank(query) then
      SortBy(users, FullName, leq)
    else
      SortBy(Matching(users, query), FullName, leq)
  }

  /** The first position of the user with id `id`. */
  function IndexOfUser(users: seq<User>, id: UserId): (r: Option<nat>)
    ensures r.Some? ==> r.value < |users| && users[r.value].id == id
    ensures r.Some? ==> forall j :: 0 <= j < r.value ==> users[j].id != id
    ensures r.None? <==> forall j :: 0 <= j < |users| ==> users[j].id != id
  {
    if users == [] then
      None
    else if users[0].id == id then
      Some(0)
    else
      match IndexOfUser(users[1..], id)
      case None => None
      case Some(i) => Some(i + 1)
  }

  /** The full profile is shown when it is public, or to its own signed-in owner. */
  predicate CanViewFull(profile: User, caller: Option<UserId>)
    ensures caller == Some(profile.id) ==> CanViewFull(profile, caller)
    ensures caller.None? ==> (CanViewFull(profile, caller) <==> !profile.isPrivate)
    ensures caller.Some? && caller.value != profile.id ==> (CanViewFull(profile, caller) <==> !profile.isPrivate)
  {
    !profile.isPrivate || (caller.Some? && caller.value == profile.id)
  }

  /** An anonymous visitor or anyone but the owner never sees a private profile in full. */
  lemma PrivateProfileHidden(profile: User, caller: Option<UserId>)
    requires profile.isPrivate
    ensures CanViewFull(profile, caller) <==> caller == Some(profile.id)
    ensures !CanViewFull(profile, None)
  {
  }

  /** The details page. */
  datatype ProfileDetail = ProfileDetail(id: UserId, fullName: string, bio: string, profileImageUrl: string, isPrivate: bool, canViewFull: bool)

  /** The details page of user `id`, as seen by `caller` (anonymous visitors allowed). */
  function Details(users: seq<User>, caller: Option<UserId>, id: string): (r: Result<ProfileDetail>)
    ensures IsBlank(id) ==> r == Failure(NotFound)
    ensures r.Failure? ==> r.outcome == NotFound
    ensures r.Success? <==> !IsBlank(id) && exists i :: 0 <= i < |users| && users[i].id == id
    ensures r.Success? ==> r.value.id == id
    ensures r.Success? ==> (r.value.canViewFull <==> !r.value.isPrivate || caller == Some(id))
    ensures r.Success? ==> IndexOfUser(users, id).Some?
    ensures r.Success? ==> (var p := users[IndexOfUser(users, id).value];
      r.value == ProfileDetail(p.id, p.fullName, p.bio, p.profileImageUrl, p.isPrivate, CanViewFull(p, caller)))
  {
    if IsBlank(id) then
      Failure(NotFound)
    else
      match IndexOfUser(users, id)
      case None => Failure(NotFound)
      case Some(i) =>
        var p := users[i];
        Success(ProfileDetail(p.id, p.fullName, p.bio, p.profileImageUrl, p.isPrivate, CanViewFull(p, caller)))
  }

  /** The posted edit form. */
  datatype ProfileEditInput = ProfileEditInput(fullName: string, bio: string, profileImageUrl: string, isPrivate: bool)

  /** `[Url]`: the text starts with http://, https:// or ftp://, in any letter case. */
  predicate IsUrl(s: string) {
    StartsWithIgnoreCase(s, "http://") || StartsWithIgnoreCase(s, "https://") || StartsWithIgnoreCase(s, "ftp://")
  }

  /** The annotations on `ProfileEditViewModel`. */
  predicate EditInputValid(m: ProfileEditInput) {
    && !IsBlank(m.fullName) && |m.fullName| <= 100
    && !IsBlank(m.bio) && |m.bio| <= 280
    && !IsBlank(m.profileImageUrl) && IsUrl(m.profileImageUrl)
  }

  /** The edit form prefilled with the caller's stored profile (`Edit` GET). */
  function EditForm(users: seq<User>, caller: Option<UserId>): (r: Result<ProfileEditInput>)
    ensures r.Failure? ==> r.outcome == Challenge
    ensures r.Success? <==> caller.Some? && exists i :: 0 <= i < |users| && users[i].id == caller.value
    ensures r.Success? ==> exists i ::
      && 0 <= i < |users| && users[i].id == caller.value
      && r.value == ProfileEditInput(users[i].fullName, users[i].bio, users[i].profileImageUrl, users[i].isPrivate)
  {
    match caller
    case None => Failure(Challenge)
    case Some(u) =>
      match IndexOfUser(users, u)
      case None => Failure(Challenge)
      case Some(i) => Success(ProfileEditInput(users[i].fullName, users[i].bio, users[i].profileImageUrl, users[i].isPrivate))
  }

  /** Save the caller's profile: trimmed text fields and the privacy flag; nothing else changes. */
  function Edit(users: seq<User>, caller: Option<UserId>, m: ProfileEditInput): (r: Response<seq<User>>)
    ensures caller.None? ==> r.outcome == Challenge
    ensures caller.Some? && !EditInputValid(m) ==> r.outcome == Unchanged(InvalidInput)
    ensures caller.Some? && EditInputValid(m) && !r.outcome.Ok? ==> r.outcome == Challenge
    ensures r.outcome.Ok? <==> caller.Some? && EditInputValid(m) && exists i :: 0 <= i < |users| && users[i].id == caller.value
    ensures !r.outcome.Ok? ==> r.store == users
    ensures |r.store| == |users|
    ensures r.outcome.Ok? ==> exists i ::
      && 0 <= i < |users| && users[i].id == caller.value
      && r.store[i] == Saved(caller.value, m)
      && forall j :: 0 <= j < |users| && j != i ==> r.store[j] == users[j]
    ensures r.outcome.Ok? ==> !IsBlank(Trim(m.fullName)) && |Trim(m.fullName)| <= 100 && |Trim(m.bio)| <= 280
  {
    match caller
    case None => Response(Challenge, users)
    case Some(u) =>
      if !EditInputValid(m) then
        Response(Unchanged(InvalidInput), users)
      else
        match IndexOfUser(users, u)
        case None => Response(Challenge, users)
        case Some(i) =>
          TrimKeepsContent(m.fullName);
          TrimKeepsContent(m.bio);
          Response(Ok, Replace(users, i, Saved(u, m)))
  }

  /** The form as stored: trimmed text and the privacy flag, on the account `id`. */
  function Saved(id: UserId, m: ProfileEditInput): User {
    User(id, Trim(m.fullName), Trim(m.bio), Trim(m.profileImageUrl), m.isPrivate)
  }

  /** The table with row `i` replaced by `row`. */
  function Replace(users: seq<User>, i: nat, row: User): (r: seq<User>)
    requires i < |users|
    ensures |r| == |users| && r[i] == row
    ensures forall j :: 0 <= j < |users| && j != i ==> r[j] == users[j]
  {
    users[i := row]
  }

  /** Replacing the row at the first index of `id` by a row with the same id keeps that index first. */
  lemma {:induction false} IndexOfUserAfterUpdate(users: seq<User>, id: UserId, i: nat, row: User)
    requires IndexOfUser(users, id) == Some(i) && row.id == id
    ensures IndexOfUser(users[i := row], id) == Some(i)
  {
    if i > 0 {
      assert users[i := row][1..] == users[1..][i - 1 := row];
      IndexOfUserAfterUpdate(users[1..], id, i - 1, row);
    }
  }

  /** After a successful edit the owner's details page shows the saved values, in full (identity ids are never blank). */
  lemma EditThenDetails(users: seq<User>, u: UserId, m: ProfileEditInput, i: nat)
    requires !IsBlank(u) && EditInputValid(m)
    requires IndexOfUser(users, u) == Some(i)
    ensures var d := Details(Edit(users, Some(u), m).store, Some(u), u);
      && d.Success?
      && d.value.fullName == Trim(m.fullName)
      && d.value.bio == Trim(m.bio)
      && d.value.profileImageUrl == Trim(m.profileImageUrl)
      && d.value.isPrivate == m.isPrivate
      && d.value.canViewFull
  {
    EditRewritesRow(users, u, m, i);
    IndexOfUserAfterUpdate(users, u, i, Saved(u, m));
  }

  /** A valid edit by the owner of the row at index `i` rewrites exactly that row. */
  lemma EditRewritesRow(users: seq<User>, u: UserId, f: ProfileEditInput, i: nat)
    requires IndexOfUser(users, u) == Some(i)
    requires EditInputValid(f)
    ensures Edit(users, Some(u), f) == Response(Ok, Replace(users, i, Saved(u, f)))
  {
  }

  /** Rewriting a row with its own, already trimmed values leaves the table as it was. */
  lemma RewriteWithOwnValues(users: seq<User>, u: UserId, f: ProfileEditInput, i: nat)
    requires 0 <= i < |users| && users[i].id == u
    requires Trimmed(f.fullName) && Trimmed(f.bio) && Trimmed(f.profileImageUrl)
    requires f == ProfileEditInput(users[i].fullName, users[i].bio, users[i].profileImageUrl, users[i].isPrivate)
    ensures Replace(users, i, Saved(u, f)) == users
  {
    TrimFixesTrimmed(f.fullName);
    TrimFixesTrimmed(f.bio);
    TrimFixesTrimmed(f.profileImageUrl);
    assert Trim(f.fullName) == users[i].fullName;
    assert Trim(f.bio) == users[i].bio;
    assert Trim(f.profileImageUrl) == users[i].profileImageUrl;
    assert Saved(u, f) == users[i];
    assert users[i := users[i]] == users;
  }

  /** Posting back the untouched form of an already trimmed, valid profile changes nothing. */
  lemma SaveUnchangedForm(users: seq<User>, u: UserId, i: nat)
    requires IndexOfUser(users, u) == Some(i)
    requires Trimmed(users[i].fullName) && Trimmed(users[i].bio) && Trimmed(users[i].profileImageUrl)
    requires EditInputValid(ProfileEditInput(users[i].fullName, users[i].bio, users[i].profileImageUrl, users[i].isPrivate))
    ensures var f := EditForm(users, Some(u));
      && f.Success?
      && Edit(users, Some(u), f.value) == Response(Ok, users)
  {
    var f := ProfileEditInput(users[i].fullName, users[i].bio, users[i].profileImageUrl, users[i].isPrivate);
    assert EditForm(users, Some(u)) == Success(f);
    RewriteWithOwnValues(users, u, f, i);
    EditRewritesRow(users, u, f, i);
  }
}

=== FILE: sorting.dfy ===
/**
  A stable insertion sort on a string key, under an abstract total preorder
  on strings: the collation the store applies to `OrderBy` is not known here.
 */
module Sorting {

  /** `leq` compares every pair of strings and is transitive. */
  ghost predicate TotalPreorder(leq: (string, string) -> bool) {
    && (forall a, b :: leq(a, b) || leq(b, a))
    && (forall a, b, c :: leq(a, b) && leq(b, c) ==> leq(a, c))
  }

  /** The keys of `s` ascend under `leq`. */
  ghost predicate SortedBy<T>(s: seq<T>, key: T -> string, leq: (string, string) -> bool) {
    forall i, j :: 0 <= i < j < |s| ==> leq(key(s[i]), key(s[j]))
  }

  /** Inserts `x` into the sorted `s`, after every element whose key it does not precede. */
  function InsertSorted<T>(x: T, s: seq<T>, key: T -> string, leq: (string, string) -> bool): (r: seq<T>)
    requires TotalPreorder(leq) && SortedBy(s, key, leq)
    ensures SortedBy(r, key, leq)
    ensures multiset(r) == multiset(s) + multiset{x}
  {
    if s == [] then
      [x]
    else if leq(key(x), key(s[0])) then
      PrependSmallest(x, s, key, leq);
      [x] + s
    else
      var rest := InsertSorted(x, s[1..], key, leq);
      HeadPrecedesRest(x, s, rest, key, leq);
      SortedCons(s[0], rest, key, leq);
      assert s == [s[0]] + s[1..];
      [s[0]] + rest
  }

  /** An element at most the head of a sorted list may go in front of it. */
  lemma PrependSmallest<T>(x: T, s: seq<T>, key: T -> string, leq: (string, string) -> bool)
    requires TotalPreorder(leq) && SortedBy(s, key, leq)
    requires |s| > 0 && leq(key(x), key(s[0]))
    ensures SortedBy([x] + s, key, leq)
  {
    forall i | 0 < i < |s| ensures leq(key(x), key(s[i])) {
      assert leq(key(s[0]), key(s[i]));
    }
    SortedCons(x, s, key, leq);
  }

  /** A head that precedes every element of a sorted list keeps it sorted. */
  lemma SortedCons<T>(h: T, s: seq<T>, key: T -> string, leq: (string, string) -> bool)
    requires SortedBy(s, key, leq)
    requires forall i :: 0 <= i < |s| ==> leq(key(h), key(s[i]))
    ensures SortedBy([h] + s, key, leq)
  {
    var r := [h] + s;
    forall i, j | 0 <= i < j < |r| ensures leq(key(r[i]), key(r[j])) {
      if i > 0 {
        assert r[i] == s[i - 1] && r[j] == s[j - 1];
      } else {
        assert r[j] == s[j - 1];
      }
    }
  }

  /** When `x` does not go first, the head of `s` precedes everything `x` is inserted among. */
  lemma HeadPrecedesRest<T>(x: T, s: seq<T>, rest: seq<T>, key: T -> string, leq: (string, string) -> bool)
    requires TotalPreorder(leq) && SortedBy(s, key, leq)
    requires |s| > 0 && !leq(key(x), key(s[0]))
    requires multiset(rest) == multiset(s[1..]) + multiset{x}
    ensures forall i :: 0 <= i < |rest| ==> leq(key(s[0]), key(rest[i]))
  {
    forall i | 0 <= i < |rest| ensures leq(key(s[0]), key(rest[i])) {
      assert rest[i] in multiset(rest);
      if rest[i] != x {
        assert rest[i] in multiset(s[1..]);
        var j :| 0 <= j < |s[1..]| && s[1..][j] == rest[i];
        assert s[j + 1] == rest[i];
      }
    }
  }

  /** Sorts `s` by `key` under `leq`. */
  function SortBy<T>(s: seq<T>, key: T -> string, leq: (string, string) -> bool): (r: seq<T>)
    requires TotalPreorder(leq)
    ensures SortedBy(r, key, leq)
    ensures multiset(r) == multiset(s)
  {
    if s == [] then
      []
    else
      assert s == [s[0]] + s[1..];
      InsertSorted(s[0], SortBy(s[1..], key, leq), key, leq)
  }
}

=== FILE: tables.dfy ===
/**
  A database table with an identity key: rows indexed by integer id, and the
  counter the store draws fresh ids from. Ids start at 1 and are never reused.
 */
module Tables {
  import opened Common

  type Id = int

  datatype Table<R> = Table(rows: map<Id, R>, nextId: Id)

  /** An empty table whose first row will get id 1. */
  function EmptyTable<R>(): (t: Table<R>)
    ensures Valid(t) && t.rows == map[]
  {
    Table(map[], 1)
  }

  /** The first row added to an empty table gets id 1 and is its only row. */
  lemma FirstInsertGetsOne<R>(row: R)
    ensures var (t, id) := Insert(EmptyTable(), row);
      && id == 1 && t.rows == map[1 := row] && t.nextId == 2
  {
  }

  /** Every stored id was drawn from the counter: it lies in [1, nextId). */
  ghost predicate Valid<R>(t: Table<R>) {
    && 1 <= t.nextId
    && forall k :: k in t.rows ==> 1 <= k < t.nextId
  }

  /** Adds a row under a fresh id; returns the new table and that id. */
  function Insert<R>(t: Table<R>, row: R): (res: (Table<R>, Id))
    requires Valid(t)
    ensures res.1 !in t.rows && Valid(res.0)
    ensures res.0.rows == t.rows[res.1 := row]
    ensures t.nextId <= res.1 < res.0.nextId
  {
    (Table(t.rows[t.nextId := row], t.nextId + 1), t.nextId)
  }

  /** `FirstOrDefault(p)` on the table: the lowest id whose row satisfies `p`. */
  function FirstWhere<R>(t: Table<R>, p: R -> bool): (k: Option<Id>)
    requires Valid(t)
    ensures k.Some? ==> k.value in t.rows && p(t.rows[k.value])
    ensures k.Some? ==> forall j :: j in t.rows && j < k.value ==> !p(t.rows[j])
    ensures k.None? <==> forall j :: j in t.rows ==> !p(t.rows[j])
  {
    Scan(t.rows, p, 1, t.nextId)
  }

  /** Looks for the lowest id in [lo, hi) whose row satisfies `p`. */
  function Scan<R>(rows: map<Id, R>, p: R -> bool, lo: Id, hi: Id): (k: Option<Id>)
    ensures k.Some? ==> lo <= k.value < hi && k.value in rows && p(rows[k.value])
    ensures k.Some? ==> forall j :: j in rows && lo <= j < k.value ==> !p(rows[j])
    ensures k.None? <==> forall j :: j in rows && lo <= j < hi ==> !p(rows[j])
    decreases hi - lo
  {
    if lo >= hi then None
    else if lo in rows && p(rows[lo]) then Some(lo)
    else Scan(rows, p, lo + 1, hi)
  }

  /** The ids of the rows satisfying `p`. */
  function Where<R>(t: Table<R>, p: R -> bool): (ks: set<Id>)
    ensures forall k :: k in ks <==> k in t.rows && p(t.rows[k])
  {
    set k | k in t.rows && p(t.rows[k])
  }

  /** `Where`, `FirstWhere` and `RemoveWhere` agree: the first match is the least id of the matches,
      there is none exactly when there are no matches, and removal keeps exactly the other ids. */
  lemma WhereAgrees<R>(t: Table<R>, p: R -> bool)
    requires Valid(t)
    ensures FirstWhere(t, p).None? <==> Where(t, p) == {}
    ensures FirstWhere(t, p).Some? ==>
      FirstWhere(t, p).value in Where(t, p) && forall j :: j in Where(t, p) ==> FirstWhere(t, p).value <= j
    ensures RemoveWhere(t, p).rows.Keys == t.rows.Keys - Where(t, p)
  {
    var w := Where(t, p);
    if FirstWhere(t, p).None? {
      assert forall k :: k in t.rows ==> !p(t.rows[k]);
      assert forall k :: k !in w;
      assert w == {};
    }
  }

  /** The table without the rows satisfying `p`. */
  function RemoveWhere<R>(t: Table<R>, p: R -> bool): (t': Table<R>)
    ensures t'.nextId == t.nextId
    ensures forall k :: k in t'.rows <==> k in t.rows && !p(t.rows[k])
    ensures forall k :: k in t'.rows ==> t'.rows[k] == t.rows[k]
    ensures Valid(t) ==> Valid(t')
  {
    Table(map k | k in t.rows && !p(t.rows[k]) :: t.rows[k], t.nextId)
  }
}

=== FILE: text.dfy ===
/**
  The string primitives the controllers rely on: `string.IsNullOrWhiteSpace`,
  `Trim`, `ToLower` and `Contains`. A missing form value (null) is modelled as
  the empty string; both are blank.
 */
module Text {

  /** `char.IsWhiteSpace`: the Unicode space separators, line and paragraph
      separators, U+0009..U+000D and U+0085. */
  predicate IsWhiteSpace(c: char) {
    || c == ' '
    || ('\t' <= c <= '\r')
    || c == '\U{85}'
    || c == '\U{A0}'
    || c == '\U{1680}'
    || ('\U{2000}' <= c <= '\U{200A}')
    || c == '\U{2028}'
    || c == '\U{2029}'
    || c == '\U{202F}'
    || c == '\U{205F}'
    || c == '\U{3000}'
  }

  /** `string.IsNullOrWhiteSpace`: empty, or made of white space only. */
  predicate IsBlank(s: string) {
    forall i :: 0 <= i < |s| ==> IsWhiteSpace(s[i])
  }

  /** Drops the leading white space. */
  function TrimStart(s: string): (r: string)
    ensures |r| <= |s| && r == s[|s| - |r|..]
    ensures IsBlank(s[..|s| - |r|])
    ensures r == [] || !IsWhiteSpace(r[0])
  {
    if |s| > 0 && IsWhiteSpace(s[0]) then
      var r := TrimStart(s[1..]);
      TrimStartStep(s, r);
      r
    else
      s
  }

  /** The step of `TrimStart`: a blank prefix of `s[1..]` after a white-space `s[0]` is a blank prefix of `s`. */
  lemma TrimStartStep(s: string, r: string)
    requires |s| > 0 && IsWhiteSpace(s[0])
    requires |r| <= |s| - 1 && IsBlank(s[1..][..|s| - 1 - |r|])
    ensures IsBlank(s[..|s| - |r|])
  {
    forall i | 0 <= i < |s| - |r| ensures IsWhiteSpace(s[i]) {
      if i > 0 {
        assert s[i] == s[1..][..|s| - 1 - |r|][i - 1];
      }
    }
  }

  /** Drops the trailing white space. */
  function TrimEnd(s: string): (r: string)
    ensures |r| <= |s| && r == s[..|r|]
    ensures IsBlank(s[|r|..])
    ensures r == [] || !IsWhiteSpace(r[|r| - 1])
  {
    if |s| > 0 && IsWhiteSpace(s[|s| - 1]) then
      var r := TrimEnd(s[..|s| - 1]);
      TrimEndStep(s, r);
      r
    else
      s
  }

  /** The step of `TrimEnd`: a blank suffix of `s[..|s| - 1]` before a white-space last character is a blank suffix of `s`. */
  lemma TrimEndStep(s: string, r: string)
    requires |s| > 0 && IsWhiteSpace(s[|s| - 1])
    requires |r| <= |s| - 1 && IsBlank(s[..|s| - 1][|r|..])
    ensures IsBlank(s[|r|..])
  {
    forall i | 0 <= i < |s| - |r| ensures IsWhiteSpace(s[|r|..][i]) {
      if |r| + i < |s| - 1 {
        assert s[|r|..][i] == s[..|s| - 1][|r|..][i];
      }
    }
  }

  /** `s` is `pre + r + post` for some all-white-space `pre` and `post`. */
  ghost predicate PaddedBy(s: string, r: string, lo: int) {
    && 0 <= lo <= |s| - |r|
    && s[lo..lo + |r|] == r
    && IsBlank(s[..lo])
    && IsBlank(s[lo + |r|..])
  }

  /** `string.Trim()`: the infix of `s` left after removing white space at both ends. */
  function Trim(s: string): (r: string)
    ensures |r| <= |s|
    ensures exists lo :: PaddedBy(s, r, lo)
    ensures r == [] || (!IsWhiteSpace(r[0]) && !IsWhiteSpace(r[|r| - 1]))
    ensures IsBlank(s) <==> r == []
  {
    var t := TrimStart(s);
    var r := TrimEnd(t);
    Padding(s, t, r);
    r
  }

  /** A blank prefix dropped from `s`, then a blank suffix dropped from what is left, pad `r` inside `s`. */
  lemma Padding(s: string, t: string, r: string)
    requires |t| <= |s| && t == s[|s| - |t|..] && IsBlank(s[..|s| - |t|])
    requires |r| <= |t| && r == t[..|r|] && IsBlank(t[|r|..])
    ensures PaddedBy(s, r, |s| - |t|)
    ensures r == [] ==> IsBlank(s)
  {
    var lo := |s| - |t|;
    assert s[lo..lo + |r|] == r;
    assert s[lo + |r|..] == t[|r|..];
    if r == [] {
      forall i | 0 <= i < |s| ensures IsWhiteSpace(s[i]) {
        if i < lo {
          assert s[i] == s[..lo][i];
        } else {
          assert s[i] == t[|r|..][i - lo];
        }
      }
    }
  }

  /** `s` has no white space at either end. */
  predicate Trimmed(s: string) {
    s == [] || (!IsWhiteSpace(s[0]) && !IsWhiteSpace(s[|s| - 1]))
  }

  /** `Trim` leaves exactly the strings without white space at either end unchanged. */
  lemma TrimFixesTrimmed(s: string)
    ensures Trim(s) == s <==> Trimmed(s)
  {
    var r := Trim(s);
    if Trimmed(s) && s != [] {
      var lo :| PaddedBy(s, r, lo);
      assert s[0..|s|] == s;
    }
  }

  /** Trimming an already trimmed string changes nothing. */
  lemma TrimIdempotent(s: string)
    ensures Trim(Trim(s)) == Trim(s)
  {
    var r := Trim(s);
    var lo :| PaddedBy(r, Trim(r), lo);
    var r' := Trim(r);
    if r != [] {
      assert r[0..|r|] == r;
    }
  }

  /** A string that is not blank stays not blank once trimmed, and never grows. */
  lemma TrimKeepsContent(s: string)
    requires !IsBlank(s)
    ensures !IsBlank(Trim(s)) && 0 < |Trim(s)| <= |s|
  {
    var r := Trim(s);
    assert !IsWhiteSpace(r[0]);
  }

  /** ASCII lowering of one character; every other character is kept. */
  function LowerChar(c: char): char {
    if 'A' <= c <= 'Z' then (c as int + 32) as char else c
  }

  /** `ToLower()`, restricted to the ASCII letters. */
  function ToLower(s: string): (r: string)
    ensures |r| == |s|
    ensures forall i :: 0 <= i < |s| ==> r[i] == LowerChar(s[i])
  {
    seq(|s|, i requires 0 <= i < |s| => LowerChar(s[i]))
  }

  /** Lowering twice is lowering once, and lowered text has no ASCII capitals. */
  lemma ToLowerIdempotent(s: string)
    ensures ToLower(ToLower(s)) == ToLower(s)
    ensures forall i :: 0 <= i < |s| ==> !('A' <= ToLower(s)[i] <= 'Z')
  {
  }

  /** `t` occurs in `s` starting at index `i`. */
  ghost predicate OccursAt(s: string, t: string, i: int) {
    0 <= i && i + |t| <= |s| && s[i..i + |t|] == t
  }

  /** `string.Contains(string)`: ordinal substring search. */
  function Contains(s: string, t: string): (b: bool)
    ensures b <==> exists i :: OccursAt(s, t, i)
    decreases |s|
  {
    if |t| > |s| then
      false
    else if s[..|t|] == t then
      assert OccursAt(s, t, 0);
      true
    else
      ContainsShift(s, t);
      Contains(s[1..], t)
  }

  /** Occurrences in `s` past its first character are occurrences in `s[1..]`, shifted by one. */
  lemma ContainsShift(s: string, t: string)
    requires |t| <= |s| && s[..|t|] != t
    ensures (exists i :: OccursAt(s, t, i)) <==> (exists i :: OccursAt(s[1..], t, i))
  {
    if exists i :: OccursAt(s[1..], t, i) {
      var i :| OccursAt(s[1..], t, i);
      assert s[1..][i..i + |t|] == s[i + 1..i + 1 + |t|];
      assert OccursAt(s, t, i + 1);
    }
    if exists i :: OccursAt(s, t, i) {
      var i :| OccursAt(s, t, i);
      if i != 0 {
        assert s[1..][i - 1..i - 1 + |t|] == s[i..i + |t|];
        assert OccursAt(s[1..], t, i - 1);
      }
    }
  }

  /** `s` starts with `prefix`, comparing ASCII letters without regard to case. */
  predicate StartsWithIgnoreCase(s: string, prefix: string) {
    |prefix| <= |s| && ToLower(s[..|prefix|]) == ToLower(prefix)
  }
}
